=== FILE: README.md ===
# hottp, modelled in Dafny

hottp is a small Go library of HTTP client decorators. A `Client` is anything with
`Do(req) (res, err)`. A `Decorator` turns a client into another client. `Decorate`
folds a list of decorators over a base client. The library provides these layers:

- a logging layer, which calls a request logger;
- a header layer, `SetHeaderDecorator`;
- the `Authorization: Basic …` layer, built on the header layer;
- a load-balancing layer, which rewrites the request target with a strategy such as
  `RandomStrategy`;
- a retry layer, which re-invokes the client it wraps until a call succeeds or its
  captured attempt counter runs out.

The model gives the library a pure state-passing semantics:

- **Requests.** A request is a datatype holding the method, target, header map and
  body (`Http.Request`). A layer's changes to it travel inward and stay visible to
  later retry attempts, because Go passes `*http.Request`.
- **Chains.** A chain of layers is the datatype `Hottp.Client`. `Hottp.Invoke`
  interprets it from the outside in.
- **World.** The mutable state a call can change is a `Hottp.World`. It holds:
  - the captured retry counters, one cell per `RetryDecorator` call;
  - the number of transport exchanges and random draws so far;
  - a trace of events: logger calls, exchanges, retry log lines and sleeps.
- **Environment.** The base transport and the random source come from a
  `Hottp.Env`. The transport maps the exchange number and the request to the
  `(res, err)` pair. The random source maps the draw number to a number.
- **Panics.** A Go panic, such as `rand.Intn(0)`, is the step `Panicked`.
- **Retry loop.** The retry loop appears twice: as the recursive function
  `Hottp.RetryLoop`, and as the `while` loop of `Hottp.RetryInvoke`, which is proved
  to compute the same thing.
- **Base 64.** The standard padded encoding of section 4 of RFC 4648 is
  `Base64.Encode`. A strict decoder, `Base64.Decode`, states its round trip in both
  directions: an encoding decodes to its input, and a string that decodes is the
  encoding of what it decodes to.
  `Authorization` values follow the Basic scheme of section 2 of RFC 7617.

Files:

- `wrappers.dfy`: `Option`.
- `strings.dfy`: Go strings as byte sequences.
- `http.dfy`: requests, responses and `Header.Set`.
- `base64.dfy`: the encoding.
- `hottp.dfy`: the library.
- `traces.dfy`: views of the event trace.
- `layer_laws.dfy`: per-layer laws and frame lemmas.
- `single_pass.dfy`: one pass through a chain without retry layers.
- `retry_laws.dfy`: what a retry invocation does.
- `correction.dfy`: the corrected retry layer compared with the written one.
- `scenarios.dfy`: whole-call consequences, including the composition of
  `cmd/main.go`.
- `known_answers.dfy`: the credentials of `cmd/main.go` worked through the encoder
  and the header builder.

### Behaviour of the code worth knowing

- **Sleep after the last failure.** The retry layer logs and sleeps after every
  failure, the last one included (hottp.go:65-67). Only then does it test the counter
  again (hottp.go:61). With a counter of 3 and a transport that always fails, a call
  makes three exchanges and sleeps three times (`Scenarios.RetryAlwaysFailing`).
  Each `retrying..` line carries the error of the exchange just before it, and its
  sleep follows it directly (`RetryLaws.RetryRun`).
- **The counter is never reset.** The loop decrements the parameter `attempts` that
  the layer's closure captured (hottp.go:54, 61, 66). Every call through the layer
  shares that count, and nothing restores it. See the findings below.
- **Empty URL list.** `LoadBalancerDecorator` accepts any list (hottp.go:77-84). With
  `RandomStrategy`, an empty list makes `rand.Intn(0)` panic at request time
  (hottp.go:87). The model returns `Panicked` from the call
  (`LayerLaws.LoadBalancerLayer`).
- **Request reuse.** Every attempt of the retry layer passes the same `*http.Request`
  (hottp.go:62), and the layers inside write to it (hottp.go:43, 80). Each later
  attempt therefore sends what the inner layers make of the request the attempt
  before it sent (`SinglePass.DeliversStep`, `RetryLaws.RetryRun`). The method and
  body never change (`LayerLaws.InvokeKeepsVerbBody`); the header and target can.
- **Logging placement.** A logging layer outside a retry layer logs once per call,
  before any attempt. One inside logs once per attempt (`Scenarios.LoggingOutsideRetry`,
  `Scenarios.LoggingInsideRetry`).

## Model

| member | source | states |
|---|---|---|
| Hottp.Decorate | hottp.go:24-29 | the layers of the result are the decorators in reverse order followed by the layers of `c`: the last decorator is outermost and the first sits right around `c` |
| Hottp.DecorateSnoc | hottp.go:24-29 | applying one more decorator wraps the previous result, so it becomes the new outermost layer |
| Hottp.DecorateLoop | hottp.go:24-29 | the `range` loop that reassigns `c` builds the same chain as the fold, with the last decorator outermost |
| LayerLaws.DecorateOrder | hottp.go:24-29 | an empty list returns `c` unchanged; a non-empty list is its last decorator around the decoration by the rest; the first decorator is the innermost added layer |
| LayerLaws.DecorateAppend | hottp.go:24-29 | decorating with `a` and then with `b` equals decorating once with `a + b` |
| Http.SetHeaderValue | hottp.go:43 | afterwards `key` holds exactly `[value]`; every other key keeps its presence and values; method, target and body are unchanged |
| Http.SetHeaderLastWins | hottp.go:43 | setting a key twice is the same as setting it once to the second value |
| Http.SetHeaderForgetsPrior | hottp.go:43 | the result does not depend on whether the key was absent or what it held before |
| LayerLaws.LoggingTransparent | hottp.go:31-38 | a layer built by `LoggingDecorator` records one logger call with the unchanged request before everything the inner client does, and then behaves exactly as the inner client on the same request |
| LayerLaws.SetHeaderLayer | hottp.go:40-47 | a layer built by `SetHeaderDecorator` is the inner client applied to the request with the key set, with the result passed back verbatim; what the key held before makes no difference |
| Hottp.AuthorizationDecorator | hottp.go:49-52 | the layer is the header layer for `Authorization`, whose value starts with `Basic ` and continues with an encoding that decodes to `user:password` |
| Hottp.BasicAuthHeader | hottp.go:106-108 | the value is `Basic ` followed by a base 64 text that decodes to `user:password` |
| Hottp.Base64Auth | hottp.go:110-113 | the encoding decodes back to the bytes of `user:password`, and no other string decodes to them; its length is 4·⌈(\|user\|+\|password\|+1)/3⌉; it is alphabet letters followed by exactly the padding count of `=` |
| Base64.Encode | hottp.go:112 | the encoding of n bytes has 4·⌈n/3⌉ characters |
| Base64.EncodePadded | hottp.go:112 | an encoding is letters of the standard alphabet followed by 0, 1 or 2 `=`, as the input length modulo 3 demands |
| Base64.DecodeEncode | hottp.go:112 | decoding an encoding gives back the input: the encoding loses nothing |
| Base64.EncodeDecode | hottp.go:112 | every string that decodes is the encoding of what it decodes to; a final group whose unused bits are not zero does not decode |
| Base64.DecodeUnique | hottp.go:112 | the encoding of the input is the only string that decodes to it |
| KnownAnswers.EncodeCredentials | hottp.go:110-113 | the bytes of `user:passwd` encode to `dXNlcjpwYXNzd2Q=` |
| KnownAnswers.MainHeader | cmd/main.go:39 | the credentials of cmd/main.go give the `Authorization` value `Basic dXNlcjpwYXNzd2Q=` |
| Base64.EncodeInjective | hottp.go:112 | different inputs have different encodings |
| Base64.Index | hottp.go:112 | a byte has an alphabet position exactly when it is a letter, and the letter at that position is the byte |
| Base64.IndexLetter | hottp.go:112 | the position of the letter at `i` is `i`: the alphabet has no repeated letter |
| LayerLaws.LoadBalancerLayer | hottp.go:77-84 | for a layer built by `LoadBalancerDecorator`: with the random strategy it draws once and calls the inner client with only the target replaced by an element of the list; a one-element list always gives that element; an empty list panics; a custom strategy's pick replaces only the target |
| Hottp.RandomStrategy | hottp.go:86-89 | a URL is picked exactly when the list is non-empty; it is an element of the list; a singleton list yields its only element |
| LayerLaws.RandomStrategyCovers | hottp.go:86-89 | every element of the list is picked by some draw |
| Hottp.Choose | hottp.go:80-89 | calling the strategy panics exactly for the random strategy over an empty list; the random pick is an element of the list and consumes one draw, nothing else changing; a custom strategy's pick is used with the world unchanged |
| Hottp.RetryDecorator | hottp.go:54 | each call allocates a fresh counter holding `attempts` and leaves every existing counter and the rest of the world as it was |
| Hottp.Decrement | hottp.go:66 | `attempts--` lowers the captured counter by exactly one and changes nothing else: the other counters, the exchange and draw counts and the trace stay as they were |
| Hottp.AfterFailure | hottp.go:65-67 | a failed attempt adds exactly one retry log line carrying the error, then one sleep of the interval, and changes no counter, exchange count or draw count |
| Hottp.Invoke | hottp.go:31-84 | no call adds or raises a counter; the exchange and draw counts only grow, and events are only appended |
| Hottp.RetryLoop | hottp.go:61-70 | with the counter at 0 or below the loop returns the request and the current `(res, err)` without a call; a returned failure means the counter is no longer positive; no counter rises, and exchanges, draws and events only accumulate |
| Hottp.PerCallLoop | hottp.go:61-70 | corrected: with no attempts left the loop returns the request and the current `(res, err)` without a call; no counter rises, and exchanges, draws and events only accumulate |
| Hottp.RetryInvoke | hottp.go:56-71 | the imperative loop computes the same step as the recursive semantics; with the counter at 0 or below it returns the request and `(nil, nil)` without a call; a returned failure means the counter is used up |
| RetryLaws.RetryRun | hottp.go:56-70 | with counter `start > 0`: between 1 and `start` attempts, each exactly one exchange; the first sends what the inner chain makes of `req`, each later one what it makes of the request the attempt before sent, and the request returned is the last one sent; every attempt but the last failed; the last attempt's `(res, err)` is returned verbatim; a failure return means `start` attempts and the counter at 0; on success the counter is `start - (n - 1)`; there are as many sleeps and retry log lines as decrements; leaving out request-logger calls, the trace is exactly the exchanges in order, each failed one followed at once by a `retrying..` line carrying its own error and one sleep of the layer's interval; other counters are unchanged |
| RetryLaws.RetryIdle | hottp.go:61-70 | with the counter at 0 or below, a call makes no inner call, changes nothing and returns `(nil, nil)` |
| LayerLaws.InvokeTraceFrame | hottp.go:31-84 | what a call does does not depend on the events recorded before it: a different history only shifts the appended events |
| LayerLaws.InvokeKeepsVerbBody | hottp.go:31-84 | no layer changes the method or the body, on any attempt |
| SinglePass.Deliver | hottp.go:40-47 | in a chain without retry layers, each key ends up with the value of the innermost header layer for that key and untouched keys keep their values; the target is chosen by the innermost balancer and is an element of its list for the random strategy; method and body are kept |
| SinglePass.DeliversStep | hottp.go:57-62 | successive passes through the same inner chain: pass `i + 1` starts from the request pass `i` delivered, its draws numbered one chain's worth later |
| SinglePass.OnePass | hottp.go:31-84 | a call through a chain without retry or panic makes exactly one exchange, of the delivered request; returns the transport's `(res, err)` verbatim; logs once per logging layer; draws once per random balancer; and neither sleeps nor touches a counter |
| Scenarios.RetryFailsThenSucceeds | hottp.go:61-67 | a transport that fails `k` times and then succeeds, with counter above `k`, gives `k + 1` exchanges, the success returned, `k` sleeps and `k` retry log lines, and the counter `k` lower |
| Scenarios.RetryAlwaysFailing | hottp.go:61-70 | a transport that always fails gives as many exchanges, sleeps and log lines as the counter held; the last exchange's error is returned; the counter ends at 0 |
| Scenarios.BudgetCarriesOver | hottp.go:61-66 | a second call through the same retry layer starts from what the first left: none after a failed first call, at most `start - (n1 - 1)` after a success in `n1` attempts |
| Scenarios.LoggingOutsideRetry | hottp.go:31-38 | a logging layer outside a retry layer logs once per call, first, however many attempts follow |
| Scenarios.LoggingInsideRetry | hottp.go:54-70 | a logging layer inside a retry layer logs once per attempt |
| Scenarios.FirstListedSetterWins | hottp.go:24-29 | with two header layers for the same key, the value listed first in `Decorate` is the one sent |
| Scenarios.MainComposition | hottp.go:24-29 | in the chain of cmd/main.go (retry outermost, then credentials, balancer, logging) one call makes one to five exchanges; each exchange targets a listed URL and carries the credentials; the logger is called and a draw made once per exchange |
| Scenarios.SharedCounterStarves | hottp.go:54-70 | as written: after one call uses up the budget, any later call through the same layer, from any client and in any world that can follow (counters no higher, counts and trace only grown), makes no exchange and returns a nil response with a nil error |
| Scenarios.PerCallBudgetPerCall | hottp.go:54-70 | corrected: every call through the layer gets the full budget, and the counters are untouched |
| Scenarios.PerCallAlwaysFailing | hottp.go:61-70 | corrected: a transport that always fails gives exactly `attempts` exchanges and sleeps and returns the last exchange's error; the counters are untouched |
| RetryLaws.PerCallRun | hottp.go:56-70 | corrected: one call makes 1 to `attempts` attempts, the first sending what the inner chain makes of `req`, each later one what it makes of the request before, and the last one returned; every attempt but the last failed; the last result is returned verbatim; a failure return means all attempts were used; there are as many `retrying..` lines as sleeps; leaving out request-logger calls, the trace is exactly the exchanges in order, each failed one followed at once by its own error logged and one sleep of the interval; no counter changes |
| Correction.FreshRetryAgrees | hottp.go:54-70 | around an inner chain without retry layers, the first call through a freshly built retry layer is the corrected layer's call in every respect except the captured counters, which the corrected call leaves untouched |
| Correction.InvokeCountersFrame | hottp.go:31-84 | a chain without retry layers neither reads nor writes the retry counters |

## Left out

- The `net/http` transport, `http.Client`, and real requests and responses. The base client is the oracle `Env.transport`, a function of the exchange number and the request. A response is an opaque status code and body.
- `log.Logger` and `Printf` formatting, in `StandardHttpLogger`, `VerboseHttpLogger` and the retry layer's `retrying..` line. These are I/O, and each is an event in the trace. `VerboseHttpLogger` has a format with four verbs and three arguments (hottp.go:102). That only changes the printed text, so it is not modelled.
- `time.Sleep`. Each sleep is a `Slept(interval)` event carrying the duration, and time does not pass.
- The global `math/rand` source. The random source is `Env.draw`, numbered by a draw counter, and `rand.Intn(n)` is the draw modulo `n`. Uniformity is not modelled.
- Go's canonicalisation of header keys in `Header.Set`. Keys are compared as given.
- A `nil` header map or a `nil` logger. Go would panic on these, and the model takes both to be present.
- Concurrency. Concurrent calls race on the shared retry counter in Go; the model is sequential.
- Stateful custom balance strategies. A custom strategy is a pure function of the URL list.
- cmd/main.go as a program. Its network I/O, panics and status checks are left out. Only its `Decorate` call is modelled, in `Scenarios.MainComposition`, with the credentials as parameters.
- Hottp.LoggingDecorator: takes no logger. The `reqLogger` of hottp.go:31 is dropped, and the trace records each call as `Logged(req)` without naming the logger that received it. Two logging layers with different loggers are therefore indistinguishable in the trace.
- Hottp.RetryDecorator: takes no `*log.Logger` (hottp.go:54). The `retrying..` line is the event `RetryLogged(err)`, without the logger it went to.
- Go's base 64 decoder. hottp only encodes. `Base64.Decode` is a strict reference decoder for stating the encoder's properties, and it rejects final groups with non-zero unused bits, which Go's lenient `StdEncoding.DecodeString` accepts.
- RetryLaws.RetryRun: stated only for inner chains without retry or panicking layers. With a retry layer inside another, the shared counters make the attempt count depend on both layers' histories. `LayerLaws.InvokeTraceFrame` and `LayerLaws.InvokeKeepsVerbBody` still cover arbitrary chains.
- RetryLaws.PerCallRun: stated under the same hypothesis as `RetryRun`.
- Correction.FreshRetryAgrees: stated only for inner chains without retry layers. An inner retry layer reads and writes its own counter cell. Comparing the two runs would then need a frame lemma for worlds that differ in the fresh cell alone, across both loops, and the model does not prove one.
- Hottp.Decorate: the decorators and clients are the library's own. Go's `Decorate` accepts any `func(Client) Client` and any `Client`, including ones a caller writes and a nil decorator. The model's `Decorator` and `Client` are closed datatypes whose only caller-supplied parts are the transport `Env.transport` and a custom balance strategy. So `Hottp.Decorate`, `LayerLaws.DecorateOrder` and `LayerLaws.DecorateAppend` are proved over the library's layers only, and a caller-defined decorator or client cannot be expressed.
- Scenarios.MainComposition: does not restate the method and body of each exchange, which `LayerLaws.InvokeKeepsVerbBody` covers for every chain.

## Findings

| source | as written | input that shows it | evidently intended | confidence | as-written member | corrected member |
|---|---|---|---|---|---|---|
| hottp.go:54-70 | the retry layer decrements the captured parameter `attempts`, which every call through the layer shares, and never resets it; once it reaches 0, a call makes no attempt and returns the zero named results `(nil, nil)` | a layer built with `RetryDecorator(5, …)` around a transport that always fails: the first call makes 5 attempts and fails; the second call through the same layer makes none and returns `res == nil, err == nil`, which a caller such as cmd/main.go takes for a success before it reads `res.StatusCode` | every call starts with `attempts` tries of its own | not executed | Scenarios.SharedCounterStarves | Scenarios.PerCallBudgetPerCall |

The corrected layer is the decorator `RetryPerCall`, and `RetryLaws.PerCallRun`
states its contract. The rest of the model uses the written layer. This is sound for
single calls around an inner chain without retry layers:
`Correction.FreshRetryAgrees` proves that the first call through a fresh written
layer makes the same exchanges, draws and events and returns the same request and
result as the corrected layer's call. Only the captured counters differ: the
written layer's cell ends lower, and the corrected layer touches no counter.

=== FILE: base64.dfy ===
/**
 The standard, padded base 64 encoding of section 4 of RFC 4648, as used by
 Go's `base64.StdEncoding.EncodeToString`. Input is consumed in groups of three
 bytes from the front; each group becomes four letters of the 64-letter
 alphabet; a final group of one or two bytes is completed with `=` padding.

 `Decode` is the inverse used only to state what the encoder promises: every
 encoding decodes back to the bytes it came from, and every string that
 decodes is the encoding of what it decodes to. Like the strict decoders that
 section 3.5 of RFC 4648 allows, it rejects a final group whose unused bits
 are not zero, so each byte string has exactly one encoding that decodes to it.
 */
module Base64 {
  import opened Wrappers
  import opened Strings

  /** The ASCII codes of the 64 letters `A-Z a-z 0-9 + /`; `=` is not among them. */
  predicate IsLetter(c: byte)
  {
    65 <= c <= 90 || 97 <= c <= 122 || 48 <= c <= 57 || c == 43 || c == 47
  }

  /** The ASCII code of `=`. */
  const Pad: byte := 61

  /** The ASCII code of letter `i` of the alphabet. */
  function Letter(i: nat): (c: byte)
    requires i < 64
    ensures IsLetter(c) && c != Pad
  {
    if i < 26 then 65 + i
    else if i < 52 then 97 + (i - 26)
    else if i < 62 then 48 + (i - 52)
    else if i == 62 then 43
    else 47
  }

  /** The position of `c` in the alphabet, or `None` for any byte that is no letter. */
  function Index(c: byte): (r: Option<nat>)
    ensures r.Some? <==> IsLetter(c)
    ensures r.Some? ==> r.value < 64 && Letter(r.value) == c
  {
    if 65 <= c <= 90 then Some(c - 65)
    else if 97 <= c <= 122 then Some(c - 97 + 26)
    else if 48 <= c <= 57 then Some(c - 48 + 52)
    else if c == 43 then Some(62)
    else if c == 47 then Some(63)
    else None
  }

  /** Every letter of the alphabet is found again at its own position. */
  lemma IndexLetter(i: nat)
    requires i < 64
    ensures Index(Letter(i)) == Some(i)
  {
  }

  /** The number of `=` characters that end the encoding of `n` bytes. */
  function PadCount(n: nat): nat
  {
    (3 - n % 3) % 3
  }

  /** Three bytes, 24 bits, read as four 6-bit letters from the most significant bit. */
  function EncodeGroup(b0: byte, b1: byte, b2: byte): (r: seq<byte>)
    ensures |r| == 4 && IsLetter(r[0]) && IsLetter(r[1]) && IsLetter(r[2]) && IsLetter(r[3])
  {
    [Letter(b0 / 4), Letter((b0 % 4) * 16 + b1 / 16), Letter((b1 % 16) * 4 + b2 / 64), Letter(b2 % 64)]
  }

  /** A final group of two bytes: three letters (the last with two zero bits) and one `=`. */
  function EncodePair(b0: byte, b1: byte): (r: seq<byte>)
    ensures |r| == 4 && IsLetter(r[0]) && IsLetter(r[1]) && IsLetter(r[2]) && r[3] == Pad
  {
    [Letter(b0 / 4), Letter((b0 % 4) * 16 + b1 / 16), Letter((b1 % 16) * 4), Pad]
  }

  /** A final group of one byte: two letters (the last with four zero bits) and `==`. */
  function EncodeSingle(b0: byte): (r: seq<byte>)
    ensures |r| == 4 && IsLetter(r[0]) && IsLetter(r[1]) && r[2] == Pad && r[3] == Pad
  {
    [Letter(b0 / 4), Letter((b0 % 4) * 16), Pad, Pad]
  }

  /** Three more bytes make one more group and leave the padding as it was. */
  lemma GroupCount(n: nat)
    requires n >= 3
    ensures (n + 2) / 3 == (n - 1) / 3 + 1
    ensures PadCount(n) == PadCount(n - 3)
  {
  }

  /**
   `r` is a run of alphabet letters followed by exactly `pads` padding
   characters `=`.
   */
  ghost predicate Padded(r: seq<byte>, pads: nat)
  {
    pads <= |r| &&
    (forall i :: 0 <= i < |r| - pads ==> IsLetter(r[i])) &&
    (forall i :: |r| - pads <= i < |r| ==> r[i] == Pad)
  }

  /** A group of four letters in front of a padded run keeps it padded. */
  lemma PaddedPrepend(g: seq<byte>, rest: seq<byte>, pads: nat)
    requires |g| == 4 && IsLetter(g[0]) && IsLetter(g[1]) && IsLetter(g[2]) && IsLetter(g[3])
    requires Padded(rest, pads)
    ensures Padded(g + rest, pads)
  {
    var r := g + rest;
    forall i | 0 <= i < |r| - pads
      ensures IsLetter(r[i])
    {
      if i >= 4 {
        assert r[i] == rest[i - 4];
      }
    }
    forall i | |r| - pads <= i < |r|
      ensures r[i] == Pad
    {
      assert r[i] == rest[i - 4];
    }
  }

  /** The encoding: four characters per started group of three bytes. */
  function Encode(data: seq<byte>): (r: seq<byte>)
    ensures |r| == 4 * ((|data| + 2) / 3)
    decreases |data|
  {
    if |data| == 0 then []
    else if |data| == 1 then EncodeSingle(data[0])
    else if |data| == 2 then EncodePair(data[0], data[1])
    else
      GroupCount(|data|);
      EncodeGroup(data[0], data[1], data[2]) + Encode(data[3..])
  }

  /**
   Every character of an encoding is an alphabet letter except the last
   `PadCount(|data|)`, which are `=`.
   */
  lemma {:induction false} EncodePadded(data: seq<byte>)
    ensures Padded(Encode(data), PadCount(|data|))
    decreases |data|
  {
    if 3 <= |data| {
      EncodePadded(data[3..]);
      GroupCount(|data|);
      PaddedPrepend(EncodeGroup(data[0], data[1], data[2]), Encode(data[3..]), PadCount(|data| - 3));
    }
  }

  /** Four letters back to three bytes. */
  function DecodeGroup(c0: byte, c1: byte, c2: byte, c3: byte): Option<seq<byte>>
  {
    match (Index(c0), Index(c1), Index(c2), Index(c3))
    case (Some(i0), Some(i1), Some(i2), Some(i3)) =>
      Some([i0 * 4 + i1 / 16, (i1 % 16) * 16 + i2 / 4, (i2 % 4) * 64 + i3])
    case _ => None
  }

  /**
   The last four characters, which may end in one or two `=`; the bits of the
   last letter that no byte uses must be zero.
   */
  function DecodeFinal(c0: byte, c1: byte, c2: byte, c3: byte): Option<seq<byte>>
  {
    if c2 == Pad && c3 == Pad then
      match (Index(c0), Index(c1))
      case (Some(i0), Some(i1)) => if i1 % 16 == 0 then Some([i0 * 4 + i1 / 16]) else None
      case _ => None
    else if c3 == Pad then
      match (Index(c0), Index(c1), Index(c2))
      case (Some(i0), Some(i1), Some(i2)) =>
        if i2 % 4 == 0 then Some([i0 * 4 + i1 / 16, (i1 % 16) * 16 + i2 / 4]) else None
      case _ => None
    else DecodeGroup(c0, c1, c2, c3)
  }

  /** Decoding of padded standard base 64; `None` when `s` is not of that form. */
  function Decode(s: seq<byte>): Option<seq<byte>>
    decreases |s|
  {
    if |s| == 0 then Some([])
    else if |s| < 4 then None
    else if |s| == 4 then DecodeFinal(s[0], s[1], s[2], s[3])
    else
      match DecodeGroup(s[0], s[1], s[2], s[3])
      case None => None
      case Some(g) =>
        match Decode(s[4..])
        case None => None
        case Some(rest) => Some(g + rest)
  }

  /** The bits of one byte survive being cut into a 6-bit and a 2-bit letter. */
  lemma SingleBits(b0: byte)
    ensures (b0 / 4) * 4 + ((b0 % 4) * 16) / 16 == b0
  {
  }

  /** The bits of two bytes survive being cut into letters of 6, 6 and 4 bits. */
  lemma PairBits(b0: byte, b1: byte)
    ensures (b0 / 4) * 4 + ((b0 % 4) * 16 + b1 / 16) / 16 == b0
    ensures (((b0 % 4) * 16 + b1 / 16) % 16) * 16 + ((b1 % 16) * 4) / 4 == b1
  {
  }

  /** The bits of three bytes survive being cut into four 6-bit letters. */
  lemma GroupBits(b0: byte, b1: byte, b2: byte)
    ensures (b0 / 4) * 4 + ((b0 % 4) * 16 + b1 / 16) / 16 == b0
    ensures (((b0 % 4) * 16 + b1 / 16) % 16) * 16 + ((b1 % 16) * 4 + b2 / 64) / 4 == b1
    ensures (((b1 % 16) * 4 + b2 / 64) % 4) * 64 + b2 % 64 == b2
  {
  }

  lemma GroupRoundTrip(b0: byte, b1: byte, b2: byte)
    ensures DecodeGroup(Letter(b0 / 4), Letter((b0 % 4) * 16 + b1 / 16),
                        Letter((b1 % 16) * 4 + b2 / 64), Letter(b2 % 64)) == Some([b0, b1, b2])
  {
    var i0, i1, i2, i3 := b0 / 4, (b0 % 4) * 16 + b1 / 16, (b1 % 16) * 4 + b2 / 64, b2 % 64;
    IndexLetter(i0); IndexLetter(i1); IndexLetter(i2); IndexLetter(i3);
    GroupBits(b0, b1, b2);
  }

  /** Four characters are decoded as the final group. */
  lemma DecodeLast(e: seq<byte>)
    requires |e| == 4
    ensures Decode(e) == DecodeFinal(e[0], e[1], e[2], e[3])
  {
  }

  /** The final-group rule on three letters and one `=`. */
  lemma FinalPair(i0: nat, i1: nat, i2: nat)
    requires i0 < 64 && i1 < 64 && i2 < 64 && i2 % 4 == 0
    ensures DecodeFinal(Letter(i0), Letter(i1), Letter(i2), Pad)
         == Some([i0 * 4 + i1 / 16, (i1 % 16) * 16 + i2 / 4])
  {
    IndexLetter(i0); IndexLetter(i1); IndexLetter(i2);
  }

  /** The final-group rule on two letters and `==`. */
  lemma FinalSingle(i0: nat, i1: nat)
    requires i0 < 64 && i1 < 64 && i1 % 16 == 0
    ensures DecodeFinal(Letter(i0), Letter(i1), Pad, Pad) == Some([i0 * 4 + i1 / 16])
  {
    IndexLetter(i0); IndexLetter(i1);
  }

  /** Two bytes: three letters and one `=`, decoded by the final-group rule. */
  lemma PairRoundTrip(b0: byte, b1: byte)
    ensures Decode(EncodePair(b0, b1)) == Some([b0, b1])
  {
    PairBits(b0, b1);
    FinalPair(b0 / 4, (b0 % 4) * 16 + b1 / 16, (b1 % 16) * 4);
    DecodeLast(EncodePair(b0, b1));
  }

  /** One byte: two letters and `==`, decoded by the final-group rule. */
  lemma SingleRoundTrip(b0: byte)
    ensures Decode(EncodeSingle(b0)) == Some([b0])
  {
    SingleBits(b0);
    FinalSingle(b0 / 4, (b0 % 4) * 16);
    DecodeLast(EncodeSingle(b0));
  }

  /** Every encoding decodes to the bytes it was made from (RFC 4648, section 4). */
  lemma {:induction false} DecodeEncode(data: seq<byte>)
    ensures Decode(Encode(data)) == Some(data)
    decreases |data|
  {
    if |data| == 0 {
    } else if |data| == 1 {
      assert data == [data[0]];
      SingleRoundTrip(data[0]);
    } else if |data| == 2 {
      assert data == [data[0], data[1]];
      PairRoundTrip(data[0], data[1]);
    } else {
      var tail := data[3..];
      assert data == [data[0], data[1], data[2]] + tail;
      DecodeEncode(tail);
      GroupThenRest(data[0], data[1], data[2], tail);
    }
  }

  /** Three bytes alone: four letters, decoded by the final-group rule. */
  lemma LastGroupRoundTrip(b0: byte, b1: byte, b2: byte)
    ensures Decode(EncodeGroup(b0, b1, b2)) == Some([b0, b1, b2])
  {
    var e := EncodeGroup(b0, b1, b2);
    GroupRoundTrip(b0, b1, b2);
    DecodeLast(e);
    assert e[3] != Pad;
  }

  /** A full leading group decodes independently of what follows it. */
  lemma GroupThenRest(b0: byte, b1: byte, b2: byte, tail: seq<byte>)
    requires Decode(Encode(tail)) == Some(tail)
    ensures Decode(Encode([b0, b1, b2] + tail)) == Some([b0, b1, b2] + tail)
  {
    var data := [b0, b1, b2] + tail;
    assert data[3..] == tail;
    var g := EncodeGroup(b0, b1, b2);
    var e := Encode(data);
    assert e == g + Encode(tail);
    if |tail| == 0 {
      assert e == g && data == [b0, b1, b2];
      LastGroupRoundTrip(b0, b1, b2);
    } else {
      GroupRoundTrip(b0, b1, b2);
      assert e[..4] == g;
      assert e[4..] == Encode(tail);
    }
  }

  /** Four 6-bit letters read as three bytes, and the bytes cut into letters again. */
  lemma GroupLetters(i0: nat, i1: nat, i2: nat, i3: nat)
    requires i0 < 64 && i1 < 64 && i2 < 64 && i3 < 64
    ensures var b0, b1, b2 := i0 * 4 + i1 / 16, (i1 % 16) * 16 + i2 / 4, (i2 % 4) * 64 + i3;
            && b0 < 256 && b1 < 256 && b2 < 256
            && b0 / 4 == i0 && (b0 % 4) * 16 + b1 / 16 == i1
            && (b1 % 16) * 4 + b2 / 64 == i2 && b2 % 64 == i3
  {
  }

  /** Three letters whose last has two zero bits, read as two bytes and cut into letters again. */
  lemma PairLetters(i0: nat, i1: nat, i2: nat)
    requires i0 < 64 && i1 < 64 && i2 < 64 && i2 % 4 == 0
    ensures var b0, b1 := i0 * 4 + i1 / 16, (i1 % 16) * 16 + i2 / 4;
            && b0 < 256 && b1 < 256
            && b0 / 4 == i0 && (b0 % 4) * 16 + b1 / 16 == i1 && (b1 % 16) * 4 == i2
  {
  }

  /** Two letters whose last has four zero bits, read as one byte and cut into letters again. */
  lemma SingleLetters(i0: nat, i1: nat)
    requires i0 < 64 && i1 < 64 && i1 % 16 == 0
    ensures var b0 := i0 * 4 + i1 / 16;
            b0 < 256 && b0 / 4 == i0 && (b0 % 4) * 16 == i1
  {
  }

  /** A group of four letters is the encoding of the three bytes it decodes to. */
  lemma GroupEncodes(c0: byte, c1: byte, c2: byte, c3: byte)
    requires DecodeGroup(c0, c1, c2, c3).Some?
    ensures var g := DecodeGroup(c0, c1, c2, c3).value;
            |g| == 3 && EncodeGroup(g[0], g[1], g[2]) == [c0, c1, c2, c3]
  {
    var i0, i1, i2, i3 := Index(c0).value, Index(c1).value, Index(c2).value, Index(c3).value;
    var b0, b1, b2 := i0 * 4 + i1 / 16, (i1 % 16) * 16 + i2 / 4, (i2 % 4) * 64 + i3;
    GroupLetters(i0, i1, i2, i3);
    assert DecodeGroup(c0, c1, c2, c3).value == [b0, b1, b2];
    assert EncodeGroup(b0, b1, b2) == [Letter(i0), Letter(i1), Letter(i2), Letter(i3)];
  }

  /** Two letters and `==` that decode are the encoding of the one byte they decode to. */
  lemma SingleEncodes(c0: byte, c1: byte)
    requires DecodeFinal(c0, c1, Pad, Pad).Some?
    ensures var d := DecodeFinal(c0, c1, Pad, Pad).value;
            |d| == 1 && EncodeSingle(d[0]) == [c0, c1, Pad, Pad]
  {
    SingleLetters(Index(c0).value, Index(c1).value);
  }

  /** Three letters and `=` that decode are the encoding of the two bytes they decode to. */
  lemma PairEncodes(c0: byte, c1: byte, c2: byte)
    requires c2 != Pad && DecodeFinal(c0, c1, c2, Pad).Some?
    ensures var d := DecodeFinal(c0, c1, c2, Pad).value;
            |d| == 2 && EncodePair(d[0], d[1]) == [c0, c1, c2, Pad]
  {
    PairLetters(Index(c0).value, Index(c1).value, Index(c2).value);
  }

  /** Four final characters are the encoding of the bytes they decode to. */
  lemma FinalEncodes(c0: byte, c1: byte, c2: byte, c3: byte)
    requires DecodeFinal(c0, c1, c2, c3).Some?
    ensures Encode(DecodeFinal(c0, c1, c2, c3).value) == [c0, c1, c2, c3]
  {
    var d := DecodeFinal(c0, c1, c2, c3).value;
    if c2 == Pad && c3 == Pad {
      SingleEncodes(c0, c1);
      assert Encode(d) == EncodeSingle(d[0]);
    } else if c3 == Pad {
      PairEncodes(c0, c1, c2);
      assert Encode(d) == EncodePair(d[0], d[1]);
    } else {
      assert DecodeGroup(c0, c1, c2, c3) == Some(d);
      GroupEncodes(c0, c1, c2, c3);
      assert d[3..] == [];
      assert Encode(d) == EncodeGroup(d[0], d[1], d[2]) + Encode([]);
    }
  }

  /**
   Every string that decodes is the encoding of what it decodes to: the
   encoding is the only string that decodes to given bytes.
   */
  lemma {:induction false} EncodeDecode(s: seq<byte>)
    requires Decode(s).Some?
    ensures Encode(Decode(s).value) == s
    decreases |s|
  {
    if |s| == 0 {
    } else if |s| == 4 {
      FinalEncodes(s[0], s[1], s[2], s[3]);
      assert s == [s[0], s[1], s[2], s[3]];
    } else {
      assert Decode(s[4..]).Some?;
      EncodeDecode(s[4..]);
      GroupThenDecoded(s);
    }
  }

  /** Three or more bytes: the leading group becomes the leading four letters. */
  lemma EncodeCons(data: seq<byte>)
    requires |data| >= 3
    ensures Encode(data) == EncodeGroup(data[0], data[1], data[2]) + Encode(data[3..])
  {
    assert |data| != 0 && |data| != 1 && |data| != 2;
  }

  /** More than four characters decode only if the leading four and the rest both do. */
  lemma DecodeCons(s: seq<byte>)
    requires |s| > 4 && Decode(s).Some?
    ensures DecodeGroup(s[0], s[1], s[2], s[3]).Some? && Decode(s[4..]).Some?
    ensures Decode(s).value == DecodeGroup(s[0], s[1], s[2], s[3]).value + Decode(s[4..]).value
  {
  }

  /** A string of four or more characters is its leading four followed by the rest. */
  lemma SplitFour(s: seq<byte>)
    requires |s| >= 4
    ensures s == [s[0], s[1], s[2], s[3]] + s[4..]
  {
  }

  /** A leading group of four letters in front of a rest that is the encoding of what it decodes to. */
  lemma GroupThenDecoded(s: seq<byte>)
    requires |s| > 4 && Decode(s).Some?
    requires Decode(s[4..]).Some? && Encode(Decode(s[4..]).value) == s[4..]
    ensures Encode(Decode(s).value) == s
  {
    DecodeCons(s);
    var g := DecodeGroup(s[0], s[1], s[2], s[3]).value;
    var rest := Decode(s[4..]).value;
    GroupEncodes(s[0], s[1], s[2], s[3]);
    var d := g + rest;
    assert d[3..] == rest;
    EncodeCons(d);
    SplitFour(s);
  }

  /** The encoding of `data` is the one string that decodes to `data`. */
  lemma DecodeUnique(data: seq<byte>)
    ensures Decode(Encode(data)) == Some(data)
    ensures forall s :: Decode(s) == Some(data) ==> s == Encode(data)
  {
    DecodeEncode(data);
    forall s | Decode(s) == Some(data)
      ensures s == Encode(data)
    {
      EncodeDecode(s);
    }
  }

  /** Distinct byte strings have distinct encodings. */
  lemma EncodeInjective(a: seq<byte>, b: seq<byte>)
    requires Encode(a) == Encode(b)
    ensures a == b
  {
    DecodeEncode(a);
    DecodeEncode(b);
  }
}

=== FILE: correction.dfy ===
/**
 How the corrected retry layer `RetryPerCall` relates to `Retry` as written:
 while its captured counter still holds the full budget, the written layer
 does exactly what the corrected one does on every call.
 */
module Correction {
  import opened Wrappers
  import opened Http
  import opened Hottp
  import opened SinglePass

  /** `s` with the counters of its world replaced by `cs`. */
  function WithCounters(s: Step, cs: seq<int>): Step
  {
    match s
    case Returned(q, o, w) => Returned(q, o, w.(counters := cs))
    case Panicked(w) => Panicked(w.(counters := cs))
  }

  /**
   A chain without retry layers neither reads nor writes the captured
   counters: run from a world with other counters, it does the same.
   */
  lemma {:induction false} InvokeCountersFrame(env: Env, c: Client, req: Request, w: World, cs: seq<int>)
    requires RetryFree(c)
    ensures var r := Invoke(env, c, req, w);
            && r.w.counters == w.counters
            && Invoke(env, c, req, w.(counters := cs)) == WithCounters(r, cs)
    decreases c
  {
    match c
    case Base =>
    case Wrapped(d, inner) =>
      match d
      case Logging =>
        InvokeCountersFrame(env, inner, req, w.(trace := w.trace + [Logged(req)]), cs);
        assert w.(counters := cs).(trace := w.trace + [Logged(req)])
            == w.(trace := w.trace + [Logged(req)]).(counters := cs);
      case SetHeader(key, value) =>
        InvokeCountersFrame(env, inner, SetHeaderValue(req, key, value), w, cs);
      case LoadBalancer(s, urls) =>
        match Choose(env, s, urls, w)
        case None =>
        case Some((u, w')) =>
          assert Choose(env, s, urls, w.(counters := cs)) == Some((u, w'.(counters := cs)));
          InvokeCountersFrame(env, inner, req.(url := u), w', cs);
  }

  /**
   The written loop from `wa`, whose captured counter holds `k`, and the
   corrected loop with `k` attempts from `wb`, which differs from `wa` only in
   its counters, take the same steps.
   */
  lemma {:induction false} LoopsAgree(env: Env, cell: nat, interval: int, inner: Client, req: Request,
                                      wa: World, wb: World, last: Outcome)
    requires RetryFree(inner) && cell < |wa.counters|
    requires wb == wa.(counters := wb.counters)
    ensures var a := RetryLoop(env, cell, interval, inner, req, wa, last);
            a == WithCounters(PerCallLoop(env, Counter(wa, cell), interval, inner, req, wb, last), a.w.counters)
    decreases Counter(wa, cell)
  {
    if Counter(wa, cell) > 0 {
      InvokeCountersFrame(env, inner, req, wa, wb.counters);
      match Invoke(env, inner, req, wa)
      case Panicked(_) =>
      case Returned(q1, out1, w1) =>
        if out1.Failed() {
          RetryLoopFailure(env, cell, interval, inner, req, wa, last, q1, out1, w1);
          PerCallLoopFailure(env, Counter(wa, cell), interval, inner, req, wb, last, q1, out1, w1.(counters := wb.counters));
          var wa' := AfterFailure(Decrement(w1, cell), out1.err.value, interval);
          var wb' := AfterFailure(w1.(counters := wb.counters), out1.err.value, interval);
          LoopsAgree(env, cell, interval, inner, q1, wa', wb', out1);
        }
    }
  }

  /**
   The first call through a freshly built `RetryDecorator(attempts, ...)`
   layer is the call of the corrected layer with `attempts`: the same
   request, result, exchanges, draws and events; only the captured counter
   differs. The two part only from the second call on (see
   `Scenarios.SharedCounterStarves`).
   */
  lemma FreshRetryAgrees(env: Env, w0: World, attempts: int, interval: int, inner: Client, req: Request)
    requires RetryFree(inner)
    ensures var (d, w) := RetryDecorator(w0, attempts, interval);
            var a := Invoke(env, Wrapped(d, inner), req, w);
            var b := Invoke(env, Wrapped(RetryPerCall(attempts, interval), inner), req, w);
            a == WithCounters(b, a.w.counters) && b.w.counters == w.counters
  {
    var (d, w) := RetryDecorator(w0, attempts, interval);
    LoopsAgree(env, d.cell, interval, inner, req, w, w, NilOutcome);
    PerCallCounters(env, attempts, interval, inner, req, w, NilOutcome);
  }

  /** The corrected loop around a chain without retry layers leaves every counter as it was. */
  lemma {:induction false} PerCallCounters(env: Env, remaining: int, interval: int, inner: Client, req: Request, w: World, last: Outcome)
    requires RetryFree(inner)
    ensures PerCallLoop(env, remaining, interval, inner, req, w, last).w.counters == w.counters
    decreases remaining
  {
    if remaining > 0 {
      InvokeCountersFrame(env, inner, req, w, w.counters);
      match Invoke(env, inner, req, w)
      case Panicked(_) =>
      case Returned(q1, out1, w1) =>
        if out1.Failed() {
          PerCallLoopFailure(env, remaining, interval, inner, req, w, last, q1, out1, w1);
          PerCallCounters(env, remaining - 1, interval, inner, q1, AfterFailure(w1, out1.err.value, interval), out1);
        }
    }
  }
}

=== FILE: hottp.dfy ===
/**
 The decorator pipeline of hottp.go. A `Client` is the base transport wrapped
 by a chain of layers; `Invoke` runs one call of `Client.Do` through that
 chain, outer layer first, and returns the request as the layers left it, the
 `(res, err)` pair and the new `World`.

 Go closures carry state the model makes explicit:
 - every `RetryDecorator` call captures its own `attempts` variable; all
   clients built from that decorator value, and all their invocations, read and
   decrement that one variable. It lives in `World.counters` at index `cell`;
 - the transport, the random source, the loggers and `time.Sleep` are outside
   the library: the transport and the random source are the oracles of `Env`,
   and logging and sleeping append events to `World.trace`.
 */
module Hottp {
  import opened Wrappers
  import opened Strings
  import opened Http
  import Base64

  /** A `BalanceStrategy`: the library's `RandomStrategy`, or a caller's pure choice function. */
  datatype Strategy = Random | Custom(pick: seq<Url> -> Url)

  /**
   The values a `Decorator` constructor returns. `Retry` is the layer of
   `RetryDecorator` as written, with its counter in `World.counters[cell]`.
   `RetryPerCall` is not part of hottp: it is the corrected layer that starts
   every invocation from `attempts` (see the findings in README.md), kept in
   this type so that one interpreter runs both. A law stated for every chain
   therefore also covers chains holding `RetryPerCall`; the chains hottp
   itself can build are those without it.
   */
  datatype Decorator =
    | Logging
    | SetHeader(key: GoString, value: GoString)
    | LoadBalancer(strategy: Strategy, urls: seq<Url>)
    | Retry(cell: nat, interval: int)
    | RetryPerCall(attempts: int, interval: int)

  /** The base transport, or a layer wrapped around another client. */
  datatype Client = Base | Wrapped(layer: Decorator, inner: Client)

  /** The layers of a client, the outermost first. */
  function Layers(c: Client): seq<Decorator>
  {
    match c
    case Base => []
    case Wrapped(d, inner) => [d] + Layers(inner)
  }

  function Reverse<T>(s: seq<T>): (r: seq<T>)
    ensures |r| == |s|
  {
    if |s| == 0 then [] else Reverse(s[1..]) + [s[0]]
  }

  /**
   `Decorate(c, decorators...)`: each decorator wraps the client built so far,
   so the list read backwards is the chain from the outside in: the last
   decorator is outermost, the first sits right around `c`.
   */
  function Decorate(c: Client, ds: seq<Decorator>): (r: Client)
    ensures Layers(r) == Reverse(ds) + Layers(c)
    decreases |ds|
  {
    if |ds| == 0 then c
    else
      var r := Decorate(Wrapped(ds[0], c), ds[1..]);
      assert Reverse(ds) == Reverse(ds[1..]) + [ds[0]];
      r
  }

  /** Applying one more decorator wraps the previous result: it becomes the new outermost layer. */
  lemma {:induction false} DecorateSnoc(c: Client, ds: seq<Decorator>, d: Decorator)
    ensures Decorate(c, ds + [d]) == Wrapped(d, Decorate(c, ds))
    decreases |ds|
  {
    if |ds| == 0 {
      assert Decorate(c, [d]) == Decorate(Wrapped(d, c), []);
    } else {
      assert (ds + [d])[1..] == ds[1..] + [d];
      DecorateSnoc(Wrapped(ds[0], c), ds[1..], d);
    }
  }

  /** The loop of `Decorate` in hottp.go, one decorator application per iteration. */
  method DecorateLoop(c: Client, ds: seq<Decorator>) returns (r: Client)
    ensures r == Decorate(c, ds)
    ensures |ds| > 0 ==> r.Wrapped? && r.layer == ds[|ds| - 1]
  {
    r := c;
    var i := 0;
    while i < |ds|
      invariant 0 <= i <= |ds|
      invariant r == Decorate(c, ds[..i])
      invariant i > 0 ==> r.Wrapped? && r.layer == ds[i - 1]
    {
      DecorateSnoc(c, ds[..i], ds[i]);
      assert ds[..i + 1] == ds[..i] + [ds[i]];
      r := Wrapped(ds[i], r);
      i := i + 1;
    }
    assert ds[..i] == ds;
  }

  function LoggingDecorator(): Decorator
  {
    Logging
  }

  function SetHeaderDecorator(key: GoString, value: GoString): Decorator
  {
    SetHeader(key, value)
  }

  function LoadBalancerDecorator(strategy: Strategy, urls: seq<Url>): Decorator
  {
    LoadBalancer(strategy, urls)
  }

  const AuthorizationKey: GoString := Ascii("Authorization")
  const BasicPrefix: GoString := Ascii("Basic ")
  const Colon: GoString := Ascii(":")

  /** The separator is the single byte 58. */
  lemma ColonByte()
    ensures Colon == [58]
  {
    AsciiBytes(":", [58]);
  }

  /** `base64Auth`: the standard base 64 encoding of the bytes of `user:password`. */
  function Base64Auth(username: GoString, password: GoString): (r: GoString)
    ensures Base64.Decode(r) == Some(username + Colon + password)
    ensures forall s :: Base64.Decode(s) == Some(username + Colon + password) ==> s == r
    ensures |r| == 4 * ((|username| + |password| + 3) / 3)
    ensures Base64.Padded(r, Base64.PadCount(|username| + |password| + 1))
  {
    ColonByte();
    var data := username + Colon + password;
    assert |data| + 2 == |username| + |password| + 3;
    Base64.DecodeUnique(data);
    Base64.EncodePadded(data);
    Base64.Encode(data)
  }

  /** `basicAuthHeader`: the credentials of the Basic scheme of section 2 of RFC 7617. */
  function BasicAuthHeader(username: GoString, password: GoString): (r: GoString)
    ensures |r| >= |BasicPrefix| && r[..|BasicPrefix|] == BasicPrefix
    ensures Base64.Decode(r[|BasicPrefix|..]) == Some(username + Colon + password)
  {
    var r := BasicPrefix + Base64Auth(username, password);
    assert r[|BasicPrefix|..] == Base64Auth(username, password);
    r
  }

  /**
   `AuthorizationDecorator`: the header layer for `Authorization`, whose value
   is `Basic ` followed by an encoding that decodes back to `user:password`.
   */
  function AuthorizationDecorator(username: GoString, password: GoString): (r: Decorator)
    ensures r == SetHeaderDecorator(AuthorizationKey, BasicAuthHeader(username, password))
    ensures r.SetHeader? && r.key == AuthorizationKey
    ensures r.value[..|BasicPrefix|] == BasicPrefix
    ensures Base64.Decode(r.value[|BasicPrefix|..]) == Some(username + Colon + password)
  {
    SetHeaderDecorator(AuthorizationKey, BasicAuthHeader(username, password))
  }

  /**
   The external collaborators: `transport(n, req)` is what the base client
   answers to its `n`-th exchange (counting from 0); `draw(k)` is the `k`-th
   number the global random source hands to `rand.Intn`.
   */
  datatype Env = Env(transport: (nat, Request) -> Outcome, draw: nat -> nat)

  /** What happens, in order: logger calls, transport exchanges, retry log lines and sleeps. */
  datatype Event =
    | Logged(req: Request)
    | Sent(n: nat, req: Request, out: Outcome)
    | RetryLogged(err: Error)
    | Slept(interval: int)

  /**
   The mutable state a call can change: the captured retry counters, the
   number of transport exchanges and random draws so far, and the event trace.
   */
  datatype World = World(counters: seq<int>, calls: nat, draws: nat, trace: seq<Event>)

  /** The end of one `Do`: it returned, or a Go panic unwound it. */
  datatype Step =
    | Returned(req: Request, out: Outcome, w: World)
    | Panicked(w: World)

  /**
   `RetryDecorator(attempts, ...)` captures a fresh variable holding
   `attempts`; the returned layer refers to it and nothing else does yet.
   */
  function RetryDecorator(w: World, attempts: int, interval: int): (r: (Decorator, World))
    ensures r.0.Retry? && r.0.interval == interval
    ensures r.0.cell == |w.counters| && |r.1.counters| == |w.counters| + 1
    ensures r.1.counters[r.0.cell] == attempts && r.1.counters[..|w.counters|] == w.counters
    ensures r.1.calls == w.calls && r.1.draws == w.draws && r.1.trace == w.trace
  {
    (Retry(|w.counters|, interval), w.(counters := w.counters + [attempts]))
  }

  /**
   `RandomStrategy`: `urls[rand.Intn(len(urls))]`. `rand.Intn` panics on 0,
   which is `None` here; otherwise the index is the draw reduced to the range
   `[0, len(urls))`.
   */
  function RandomStrategy(urls: seq<Url>, draw: nat): (r: Option<Url>)
    ensures r.Some? <==> |urls| > 0
    ensures r.Some? ==> r.value in urls
    ensures |urls| == 1 ==> r == Some(urls[0])
  {
    if |urls| == 0 then None else Some(urls[draw % |urls|])
  }

  /**
   One call of the strategy, with the random draw it consumes; `None` is a
   panic, which only `RandomStrategy` over an empty list raises.
   */
  function Choose(env: Env, s: Strategy, urls: seq<Url>, w: World): (r: Option<(Url, World)>)
    ensures r.None? <==> s.Random? && |urls| == 0
    ensures r.Some? && s.Random? ==> r.value.0 in urls && r.value.1 == w.(draws := w.draws + 1)
    ensures r.Some? && s.Custom? ==> r.value.0 == s.pick(urls) && r.value.1 == w
  {
    match s
    case Random =>
      (match RandomStrategy(urls, env.draw(w.draws))
       case None => None
       case Some(u) => Some((u, w.(draws := w.draws + 1))))
    case Custom(pick) => Some((pick(urls), w))
  }

  /**
   The current value of the variable captured by the retry layer `cell`.
   `RetryDecorator` allocates every cell a layer refers to; a cell outside the
   store reads as 0, so that a layer without its variable does nothing.
   */
  function Counter(w: World, cell: nat): int
  {
    if cell < |w.counters| then w.counters[cell] else 0
  }

  /**
   How a world may change: the counters never grow and none is added or
   removed, exchanges and draws are only counted up, and events are only
   appended.
   */
  ghost predicate Grows(w: World, w': World)
  {
    && |w'.counters| == |w.counters|
    && (forall i :: 0 <= i < |w.counters| ==> w'.counters[i] <= w.counters[i])
    && w.calls <= w'.calls
    && w.draws <= w'.draws
    && w.trace <= w'.trace
  }

  /** What each failed retry attempt does in hottp.go: log the error, then sleep. */
  function AfterFailure(w: World, err: Error, interval: int): (r: World)
    ensures w.trace <= r.trace && r.trace[|w.trace|..] == [RetryLogged(err), Slept(interval)]
    ensures r.counters == w.counters && r.calls == w.calls && r.draws == w.draws
  {
    w.(trace := w.trace + [RetryLogged(err), Slept(interval)])
  }

  /** `attempts--` on the shared counter. */
  function Decrement(w: World, cell: nat): (r: World)
    requires cell < |w.counters|
    ensures Counter(r, cell) == Counter(w, cell) - 1
    ensures |r.counters| == |w.counters|
    ensures forall i :: 0 <= i < |w.counters| && i != cell ==> r.counters[i] == w.counters[i]
    ensures r.calls == w.calls && r.draws == w.draws && r.trace == w.trace
  {
    w.(counters := w.counters[cell := w.counters[cell] - 1])
  }

  /** `client.Do(req)` for a client built from the chain `c`. */
  function Invoke(env: Env, c: Client, req: Request, w: World): (r: Step)
    ensures Grows(w, r.w)
    decreases c, 0
  {
    match c
    case Base =>
      var out := env.transport(w.calls, req);
      Returned(req, out, w.(calls := w.calls + 1, trace := w.trace + [Sent(w.calls, req, out)]))
    case Wrapped(d, inner) =>
      match d
      case Logging =>
        Invoke(env, inner, req, w.(trace := w.trace + [Logged(req)]))
      case SetHeader(key, value) =>
        Invoke(env, inner, SetHeaderValue(req, key, value), w)
      case LoadBalancer(s, urls) =>
        (match Choose(env, s, urls, w)
         case None => Panicked(w)
         case Some((u, w')) => Invoke(env, inner, req.(url := u), w'))
      case Retry(cell, interval) =>
        RetryLoop(env, cell, interval, inner, req, w, NilOutcome)
      case RetryPerCall(attempts, interval) =>
        PerCallLoop(env, attempts, interval, inner, req, w, NilOutcome)
  }

  /**
   The `for attempts > 0` loop of `RetryDecorator`, with `attempts` read from
   and written to the shared cell. `last` is the current value of the named
   results `(res, err)`.
   */
  function RetryLoop(env: Env, cell: nat, interval: int, inner: Client, req: Request, w: World, last: Outcome): (r: Step)
    ensures Grows(w, r.w)
    ensures Counter(w, cell) <= 0 ==> r == Returned(req, last, w)
    ensures r.Returned? && r.out.Failed() ==> Counter(r.w, cell) <= 0
    decreases inner, if Counter(w, cell) > 0 then Counter(w, cell) + 1 else 0
  {
    if Counter(w, cell) <= 0 then Returned(req, last, w)
    else
      match Invoke(env, inner, req, w)
      case Panicked(w') => Panicked(w')
      case Returned(req', out, w') =>
        if !out.Failed() then Returned(req', out, w')
        else
          var w'' := AfterFailure(Decrement(w', cell), out.err.value, interval);
          RetryLoop(env, cell, interval, inner, req', w'', out)
  }

  /** The corrected loop: the remaining attempts are local to one invocation. */
  function PerCallLoop(env: Env, remaining: int, interval: int, inner: Client, req: Request, w: World, last: Outcome): (r: Step)
    ensures Grows(w, r.w)
    ensures remaining <= 0 ==> r == Returned(req, last, w)
    decreases inner, if remaining > 0 then remaining + 1 else 0
  {
    if remaining <= 0 then Returned(req, last, w)
    else
      match Invoke(env, inner, req, w)
      case Panicked(w') => Panicked(w')
      case Returned(req', out, w') =>
        if !out.Failed() then Returned(req', out, w')
        else PerCallLoop(env, remaining - 1, interval, inner, req', AfterFailure(w', out.err.value, interval), out)
  }

  /** A failed attempt of the retry loop continues with the counter decremented, the error logged and the interval slept. */
  lemma RetryLoopFailure(env: Env, cell: nat, interval: int, inner: Client, req: Request, w: World, last: Outcome,
                         q1: Request, out1: Outcome, w1: World)
    requires Counter(w, cell) > 0
    requires Invoke(env, inner, req, w) == Returned(q1, out1, w1) && out1.Failed()
    ensures cell < |w1.counters| && Counter(w1, cell) <= Counter(w, cell)
    ensures RetryLoop(env, cell, interval, inner, req, w, last)
         == RetryLoop(env, cell, interval, inner, q1, AfterFailure(Decrement(w1, cell), out1.err.value, interval), out1)
  {
  }

  /** A failed attempt of the corrected loop continues with one attempt fewer, the error logged and the interval slept. */
  lemma PerCallLoopFailure(env: Env, remaining: int, interval: int, inner: Client, req: Request, w: World, last: Outcome,
                           q1: Request, out1: Outcome, w1: World)
    requires remaining > 0
    requires Invoke(env, inner, req, w) == Returned(q1, out1, w1) && out1.Failed()
    ensures PerCallLoop(env, remaining, interval, inner, req, w, last)
         == PerCallLoop(env, remaining - 1, interval, inner, q1, AfterFailure(w1, out1.err.value, interval), out1)
  {
  }

  /**
   The loop of `RetryDecorator` as hottp.go writes it: the captured counter is
   checked, the inner client tried, and on failure the error logged, the
   counter decremented and the interval slept, until success or until the
   counter is no longer positive.
   */
  method RetryInvoke(env: Env, cell: nat, interval: int, inner: Client, req: Request, w: World) returns (r: Step)
    ensures r == Invoke(env, Wrapped(Retry(cell, interval), inner), req, w)
    ensures Counter(w, cell) <= 0 ==> r == Returned(req, NilOutcome, w)
    ensures r.Returned? && r.out.Failed() ==> Counter(r.w, cell) <= 0
  {
    var cur, q, last := w, req, NilOutcome;
    while Counter(cur, cell) > 0
      invariant |cur.counters| == |w.counters|
      invariant RetryLoop(env, cell, interval, inner, q, cur, last) == RetryLoop(env, cell, interval, inner, req, w, NilOutcome)
      invariant (cur == w && q == req && last == NilOutcome) || last.Failed()
      decreases Counter(cur, cell)
    {
      var s := Invoke(env, inner, q, cur);
      if s.Panicked? || !s.out.Failed() {
        return s;
      }
      cur := AfterFailure(Decrement(s.w, cell), s.out.err.value, interval);
      q, last := s.req, s.out;
    }
    r := Returned(q, last, cur);
  }
}

=== FILE: http.dfy ===
/**
 The parts of Go's `net/http` and `net/url` that the decorators touch: a
 request whose method, target, header map and body layers may read or
 rewrite, the response and error values a client returns, and `Header.Set`.
 */
module Http {
  import opened Wrappers
  import opened Strings

  /** A parsed `*url.URL`; its structure is never inspected by the decorators. */
  datatype Url = Url(text: GoString)

  /** `http.Header`: each header name maps to its list of values. */
  type Header = map<GoString, seq<GoString>>

  /** `verb` is the request method (`GET`, `POST`, ...). */
  datatype Request = Request(verb: GoString, url: Url, header: Header, body: GoString)

  datatype Response = Response(status: int, body: GoString)

  datatype Error = Error(text: GoString)

  /** The pair `(*http.Response, error)` returned by `Client.Do`; either part may be nil. */
  datatype Outcome = Outcome(res: Option<Response>, err: Option<Error>) {
    /** Failure means exactly a non-nil error; the status code plays no part. */
    predicate Failed()
    {
      err.Some?
    }
  }

  /** The zero value of the named results `(res, err)`: both nil. */
  const NilOutcome: Outcome := Outcome(None, None)

  /**
   `req.Header.Set(key, value)`: afterwards `key` holds exactly the one value
   `value`, whatever it held before or whether it was present at all; every
   other header, the method, the target and the body are as they were.
   */
  function SetHeaderValue(req: Request, key: GoString, value: GoString): (r: Request)
    ensures key in r.header && r.header[key] == [value]
    ensures forall k :: k != key ==> (k in r.header <==> k in req.header)
    ensures forall k :: k != key && k in req.header ==> r.header[k] == req.header[k]
    ensures r.verb == req.verb && r.url == req.url && r.body == req.body
  {
    req.(header := req.header[key := [value]])
  }

  /** Setting the same header twice leaves only the second value (last writer wins). */
  lemma SetHeaderLastWins(req: Request, key: GoString, v1: GoString, v2: GoString)
    ensures SetHeaderValue(SetHeaderValue(req, key, v1), key, v2) == SetHeaderValue(req, key, v2)
  {
  }

  /** The value a header held before `Set` has no influence on the request afterwards. */
  lemma SetHeaderForgetsPrior(req: Request, key: GoString, value: GoString, prior: Option<seq<GoString>>)
    ensures var before := match prior
                          case None => req.(header := req.header - {key})
                          case Some(vs) => req.(header := req.header[key := vs]);
            SetHeaderValue(before, key, value) == SetHeaderValue(req, key, value)
  {
    var before := match prior
                  case None => req.(header := req.header - {key})
                  case Some(vs) => req.(header := req.header[key := vs]);
    assert SetHeaderValue(before, key, value).header == SetHeaderValue(req, key, value).header;
  }
}

=== FILE: known_answers.dfy ===
/**
 The credentials of cmd/main.go, `AuthorizationDecorator("user", "passwd")`,
 worked through the encoder and the header builder. The literals are taken
 as parameters fixed by the precondition, so that the verifier compares byte
 codes instead of unfolding the encoder on a literal.
 */
module KnownAnswers {
  import opened Strings
  import opened Base64
  import Hottp

  /** `user:passwd` in base 64 is `dXNlcjpwYXNzd2Q=` (four groups, the last of two bytes). */
  lemma EncodeCredentials(plain: string, coded: string)
    requires plain == "user:passwd" && coded == "dXNlcjpwYXNzd2Q="
    ensures IsAscii(plain) && IsAscii(coded) && Encode(Ascii(plain)) == Ascii(coded)
  {
    AsciiBytes(plain, [117, 115, 101, 114, 58, 112, 97, 115, 115, 119, 100]);
    AsciiBytes(coded, [100, 88, 78, 108, 99, 106, 112, 119, 89, 88, 78, 122, 100, 50, 81, 61]);
    EncodeCredentialBytes(Ascii(plain));
  }

  /** The same encoding on the byte codes, one group of three at a time. */
  lemma EncodeCredentialBytes(data: seq<byte>)
    requires data == [117, 115, 101, 114, 58, 112, 97, 115, 115, 119, 100]
    ensures Encode(data) == [100, 88, 78, 108, 99, 106, 112, 119, 89, 88, 78, 122, 100, 50, 81, 61]
  {
    EncodeEleven(data);
    CredentialGroups();
  }

  /** The four groups of `user:passwd`: `use`, `r:p`, `ass` and the final `wd`. */
  lemma CredentialGroups()
    ensures EncodeGroup(117, 115, 101) == [100, 88, 78, 108]
    ensures EncodeGroup(114, 58, 112) == [99, 106, 112, 119]
    ensures EncodeGroup(97, 115, 115) == [89, 88, 78, 122]
    ensures EncodePair(119, 100) == [100, 50, 81, 61]
  {
  }

  /** Eleven bytes: three full groups and a final pair. */
  lemma EncodeEleven(b: seq<byte>)
    requires |b| == 11
    ensures Encode(b) == EncodeGroup(b[0], b[1], b[2]) + EncodeGroup(b[3], b[4], b[5])
                       + EncodeGroup(b[6], b[7], b[8]) + EncodePair(b[9], b[10])
  {
    var t1 := b[3..];
    var t2 := t1[3..];
    var t3 := t2[3..];
    EncodeCons(b);
    EncodeCons(t1);
    EncodeCons(t2);
    assert t3 == [b[9], b[10]];
    assert Encode(t3) == EncodePair(b[9], b[10]);
  }

  /** The header value cmd/main.go sends: `Basic dXNlcjpwYXNzd2Q=`. */
  lemma MainHeader(user: string, password: string, header: string)
    requires user == "user" && password == "passwd" && header == "Basic dXNlcjpwYXNzd2Q="
    ensures IsAscii(user) && IsAscii(password) && IsAscii(header)
    ensures Hottp.BasicAuthHeader(Ascii(user), Ascii(password)) == Ascii(header)
  {
    JoinedCredentials(user, password);
    var joined := Ascii(user) + Hottp.Colon + Ascii(password);
    EncodeCredentialBytes(joined);
    HeaderBytes(header);
    PrefixBytes();
    assert Hottp.BasicAuthHeader(Ascii(user), Ascii(password)) == Hottp.BasicPrefix + Encode(joined);
  }

  /** `user`, the colon and `passwd` joined, as bytes. */
  lemma JoinedCredentials(user: string, password: string)
    requires user == "user" && password == "passwd"
    ensures IsAscii(user) && IsAscii(password)
    ensures Ascii(user) + Hottp.Colon + Ascii(password) == [117, 115, 101, 114, 58, 112, 97, 115, 115, 119, 100]
  {
    AsciiBytes(user, [117, 115, 101, 114]);
    AsciiBytes(password, [112, 97, 115, 115, 119, 100]);
    AsciiBytes(":", [58]);
  }

  /** The scheme word of the header, `Basic `, as bytes. */
  lemma PrefixBytes()
    ensures Hottp.BasicPrefix == [66, 97, 115, 105, 99, 32]
  {
    AsciiBytes("Basic ", [66, 97, 115, 105, 99, 32]);
  }

  /** The expected header, as bytes: the scheme word, then the encoded credentials. */
  lemma HeaderBytes(header: string)
    requires header == "Basic dXNlcjpwYXNzd2Q="
    ensures IsAscii(header)
    ensures Ascii(header) == [66, 97, 115, 105, 99, 32]
                           + [100, 88, 78, 108, 99, 106, 112, 119, 89, 88, 78, 122, 100, 50, 81, 61]
  {
    HeaderHalves(header);
    assert header == header[..6] + header[6..];
    HalvesBytes(header[..6], header[6..]);
  }

  lemma HeaderHalves(header: string)
    requires header == "Basic dXNlcjpwYXNzd2Q="
    ensures header[..6] == "Basic " && header[6..] == "dXNlcjpwYXNzd2Q="
  {
  }

  lemma HalvesBytes(word: string, value: string)
    requires word == "Basic " && value == "dXNlcjpwYXNzd2Q="
    ensures IsAscii(word + value)
    ensures Ascii(word + value) == [66, 97, 115, 105, 99, 32]
                                 + [100, 88, 78, 108, 99, 106, 112, 119, 89, 88, 78, 122, 100, 50, 81, 61]
  {
    AsciiBytes(word, [66, 97, 115, 105, 99, 32]);
    AsciiBytes(value, [100, 88, 78, 108, 99, 106, 112, 119, 89, 88, 78, 122, 100, 50, 81, 61]);
    AsciiAppend(word, value);
  }
}

=== FILE: layer_laws.dfy ===
/**
 Laws of composition and of the request-rewriting and observing layers:
 fold order of `Decorate`, transparency of logging, what `SetHeader` and
 `LoadBalancer` hand to the next layer, and what a chain without retry layers
 does in one pass.
 */
module LayerLaws {
  import opened Wrappers
  import opened Strings
  import opened Http
  import opened Hottp
  import opened Traces

  lemma {:induction false} ReverseIndex<T>(s: seq<T>, i: nat)
    requires i < |s|
    ensures Reverse(s)[i] == s[|s| - 1 - i]
    decreases |s|
  {
    if i < |s| - 1 {
      ReverseIndex(s[1..], i);
    }
  }

  /**
   `Decorate` with no decorators is the client itself; otherwise its outermost
   layer is the last decorator, wrapped around the decoration by the others,
   and the layer right around `c` is the first decorator.
   */
  lemma DecorateOrder(c: Client, ds: seq<Decorator>)
    ensures Decorate(c, []) == c
    ensures |ds| > 0 ==> Decorate(c, ds) == Wrapped(ds[|ds| - 1], Decorate(c, ds[..|ds| - 1]))
    ensures |ds| > 0 ==> Layers(Decorate(c, ds))[|ds| - 1] == ds[0]
  {
    if |ds| > 0 {
      assert ds == ds[..|ds| - 1] + [ds[|ds| - 1]];
      DecorateSnoc(c, ds[..|ds| - 1], ds[|ds| - 1]);
      ReverseIndex(ds, |ds| - 1);
    }
  }

  /** Decorating in two rounds is decorating once with the concatenated list. */
  lemma {:induction false} DecorateAppend(c: Client, a: seq<Decorator>, b: seq<Decorator>)
    ensures Decorate(Decorate(c, a), b) == Decorate(c, a + b)
    decreases |b|
  {
    if |b| > 0 {
      var front, d := b[..|b| - 1], b[|b| - 1];
      assert b == front + [d];
      assert a + b == (a + front) + [d];
      calc {
        Decorate(Decorate(c, a), b);
        Decorate(Decorate(c, a), front + [d]);
        { DecorateSnoc(Decorate(c, a), front, d); }
        Wrapped(d, Decorate(Decorate(c, a), front));
        { DecorateAppend(c, a, front); }
        Wrapped(d, Decorate(c, a + front));
        { DecorateSnoc(c, a + front, d); }
        Decorate(c, (a + front) + [d]);
        Decorate(c, a + b);
      }
    } else {
      assert a + b == a;
    }
  }

  /** `s` with the trace of its world replaced by `t`. */
  function WithTrace(s: Step, t: seq<Event>): Step
  {
    match s
    case Returned(q, o, w) => Returned(q, o, w.(trace := t))
    case Panicked(w) => Panicked(w.(trace := t))
  }

  /**
   What a call does does not depend on the events recorded before it: run
   from any earlier trace, it appends the same events and ends in the same
   state otherwise.
   */
  lemma {:induction false} InvokeTraceFrame(env: Env, c: Client, req: Request, w: World, t: seq<Event>)
    ensures var r := Invoke(env, c, req, w);
            Invoke(env, c, req, w.(trace := t)) == WithTrace(r, t + Delta(w, r.w))
    decreases c, 0
  {
    var wt := w.(trace := t);
    var r := Invoke(env, c, req, w);
    match c
    case Base =>
    case Wrapped(d, inner) =>
      match d
      case Logging =>
        var w1 := w.(trace := w.trace + [Logged(req)]);
        InvokeTraceFrame(env, inner, req, w1, t + [Logged(req)]);
        assert w1.(trace := t + [Logged(req)]) == wt.(trace := wt.trace + [Logged(req)]);
        assert Delta(w, r.w) == [Logged(req)] + Delta(w1, r.w);
      case SetHeader(key, value) =>
        InvokeTraceFrame(env, inner, SetHeaderValue(req, key, value), w, t);
      case LoadBalancer(s, urls) =>
        match Choose(env, s, urls, w) {
          case None =>
            assert Choose(env, s, urls, wt).None?;
          case Some((u, w')) =>
            assert Choose(env, s, urls, wt) == Some((u, w'.(trace := t)));
            InvokeTraceFrame(env, inner, req.(url := u), w', t);
        }
      case Retry(cell, interval) =>
        RetryLoopTraceFrame(env, cell, interval, inner, req, w, NilOutcome, t);
      case RetryPerCall(attempts, interval) =>
        PerCallLoopTraceFrame(env, attempts, interval, inner, req, w, NilOutcome, t);
  }

  lemma {:induction false} RetryLoopTraceFrame(env: Env, cell: nat, interval: int, inner: Client, req: Request, w: World, last: Outcome, t: seq<Event>)
    ensures var r := RetryLoop(env, cell, interval, inner, req, w, last);
            RetryLoop(env, cell, interval, inner, req, w.(trace := t), last) == WithTrace(r, t + Delta(w, r.w))
    decreases inner, if Counter(w, cell) > 0 then Counter(w, cell) + 1 else 0, 1
  {
    if Counter(w, cell) > 0 {
      InvokeTraceFrame(env, inner, req, w, t);
      match Invoke(env, inner, req, w)
      case Panicked(w1) =>
      case Returned(q1, out1, w1) =>
        if out1.Failed() {
          var t1 := t + Delta(w, w1);
          RetryLoopFailure(env, cell, interval, inner, req, w, last, q1, out1, w1);
          RetryLoopFailure(env, cell, interval, inner, req, w.(trace := t), last, q1, out1, w1.(trace := t1));
          RetryFailTraceFrame(env, cell, interval, inner, q1, out1, w, w1, t);
        }
    } else {
      assert Delta(w, w) == [];
      assert t + Delta(w, w) == t;
    }
  }

  /**
   The rest of `RetryLoopTraceFrame` after a failed attempt that took the
   world from `w` to `w1`.
   */
  lemma {:induction false} RetryFailTraceFrame(env: Env, cell: nat, interval: int, inner: Client, q1: Request, out1: Outcome,
                                               w: World, w1: World, t: seq<Event>)
    requires w.trace <= w1.trace && cell < |w1.counters| && out1.Failed()
    ensures var tail := [RetryLogged(out1.err.value), Slept(interval)];
            var w2 := AfterFailure(Decrement(w1, cell), out1.err.value, interval);
            var r := RetryLoop(env, cell, interval, inner, q1, w2, out1);
            RetryLoop(env, cell, interval, inner, q1, AfterFailure(Decrement(w1.(trace := t + Delta(w, w1)), cell), out1.err.value, interval), out1)
              == WithTrace(r, t + Delta(w, r.w))
    decreases inner, if Counter(w1, cell) > 0 then Counter(w1, cell) + 1 else 1, 0
  {
    var t1 := t + Delta(w, w1);
    var tail := [RetryLogged(out1.err.value), Slept(interval)];
    var w2 := AfterFailure(Decrement(w1, cell), out1.err.value, interval);
    assert AfterFailure(Decrement(w1.(trace := t1), cell), out1.err.value, interval) == w2.(trace := t1 + tail);
    RetryLoopTraceFrame(env, cell, interval, inner, q1, w2, out1, t1 + tail);
    var r := RetryLoop(env, cell, interval, inner, q1, w2, out1);
    DeltaShift(w, w1, w2, r.w, tail, t);
  }

  lemma {:induction false} PerCallLoopTraceFrame(env: Env, remaining: int, interval: int, inner: Client, req: Request, w: World, last: Outcome, t: seq<Event>)
    ensures var r := PerCallLoop(env, remaining, interval, inner, req, w, last);
            PerCallLoop(env, remaining, interval, inner, req, w.(trace := t), last) == WithTrace(r, t + Delta(w, r.w))
    decreases inner, if remaining > 0 then remaining + 1 else 0, 1
  {
    if remaining > 0 {
      InvokeTraceFrame(env, inner, req, w, t);
      match Invoke(env, inner, req, w)
      case Panicked(w1) =>
      case Returned(q1, out1, w1) =>
        if out1.Failed() {
          var t1 := t + Delta(w, w1);
          PerCallLoopFailure(env, remaining, interval, inner, req, w, last, q1, out1, w1);
          PerCallLoopFailure(env, remaining, interval, inner, req, w.(trace := t), last, q1, out1, w1.(trace := t1));
          PerCallFailTraceFrame(env, remaining, interval, inner, q1, out1, w, w1, t);
        }
    } else {
      assert Delta(w, w) == [];
      assert t + Delta(w, w) == t;
    }
  }

  /**
   The rest of `PerCallLoopTraceFrame` after a failed attempt that took the
   world from `w` to `w1`.
   */
  lemma {:induction false} PerCallFailTraceFrame(env: Env, remaining: int, interval: int, inner: Client, q1: Request, out1: Outcome,
                                                 w: World, w1: World, t: seq<Event>)
    requires remaining > 0 && w.trace <= w1.trace && out1.Failed()
    ensures var w2 := AfterFailure(w1, out1.err.value, interval);
            var r := PerCallLoop(env, remaining - 1, interval, inner, q1, w2, out1);
            PerCallLoop(env, remaining - 1, interval, inner, q1, AfterFailure(w1.(trace := t + Delta(w, w1)), out1.err.value, interval), out1)
              == WithTrace(r, t + Delta(w, r.w))
    decreases inner, remaining + 1, 0
  {
    var t1 := t + Delta(w, w1);
    var tail := [RetryLogged(out1.err.value), Slept(interval)];
    var w2 := AfterFailure(w1, out1.err.value, interval);
    assert AfterFailure(w1.(trace := t1), out1.err.value, interval) == w2.(trace := t1 + tail);
    PerCallLoopTraceFrame(env, remaining - 1, interval, inner, q1, w2, out1, t1 + tail);
    var r := PerCallLoop(env, remaining - 1, interval, inner, q1, w2, out1);
    DeltaShift(w, w1, w2, r.w, tail, t);
  }

  /**
   `LoggingDecorator`: the layer calls the logger once with the request as it
   arrives, before anything the inner client does, and is otherwise
   invisible: same returned request, same `(res, err)`, same counters,
   exchanges and draws as calling the inner client directly.
   */
  lemma LoggingTransparent(env: Env, inner: Client, req: Request, w: World)
    ensures var r0 := Invoke(env, inner, req, w);
            Invoke(env, Wrapped(LoggingDecorator(), inner), req, w)
              == WithTrace(r0, w.trace + [Logged(req)] + Delta(w, r0.w))
  {
    InvokeTraceFrame(env, inner, req, w, w.trace + [Logged(req)]);
  }

  /**
   `SetHeaderDecorator(key, value)`: the inner client receives the request
   with `key` set to exactly `[value]` and its result is passed back as is;
   what `key` held before, or whether it was present, makes no difference.
   */
  lemma SetHeaderLayer(env: Env, key: GoString, value: GoString, inner: Client, req: Request, w: World, prior: Option<seq<GoString>>)
    ensures Invoke(env, Wrapped(SetHeaderDecorator(key, value), inner), req, w)
              == Invoke(env, inner, SetHeaderValue(req, key, value), w)
    ensures var before := match prior
                          case None => req.(header := req.header - {key})
                          case Some(vs) => req.(header := req.header[key := vs]);
            Invoke(env, Wrapped(SetHeaderDecorator(key, value), inner), before, w)
              == Invoke(env, Wrapped(SetHeaderDecorator(key, value), inner), req, w)
  {
    SetHeaderForgetsPrior(req, key, value, prior);
  }

  /**
   `LoadBalancerDecorator`: the strategy is called once and only the target
   is replaced; method, headers and body reach the inner client untouched and
   its result is passed back as is. With `RandomStrategy` the target is one of
   `urls` (always `urls[0]` for a single URL) and one random draw is used; an
   empty list panics before the inner client is reached.
   */
  lemma LoadBalancerLayer(env: Env, s: Strategy, urls: seq<Url>, inner: Client, req: Request, w: World)
    ensures s.Random? && |urls| == 0 ==>
              Invoke(env, Wrapped(LoadBalancerDecorator(s, urls), inner), req, w) == Panicked(w)
    ensures s.Random? && |urls| > 0 ==>
              exists u :: u in urls &&
                Invoke(env, Wrapped(LoadBalancerDecorator(s, urls), inner), req, w)
                  == Invoke(env, inner, req.(url := u), w.(draws := w.draws + 1))
    ensures s.Random? && |urls| == 1 ==>
              Invoke(env, Wrapped(LoadBalancerDecorator(s, urls), inner), req, w)
                == Invoke(env, inner, req.(url := urls[0]), w.(draws := w.draws + 1))
    ensures s.Custom? ==>
              Invoke(env, Wrapped(LoadBalancerDecorator(s, urls), inner), req, w)
                == Invoke(env, inner, req.(url := s.pick(urls)), w)
  {
    if s.Random? && |urls| > 0 {
      var u := RandomStrategy(urls, env.draw(w.draws)).value;
      assert u in urls;
    }
  }

  /** Every target `RandomStrategy` may pick is reachable: draw `i` picks `urls[i]`. */
  lemma RandomStrategyCovers(urls: seq<Url>, i: nat)
    requires i < |urls|
    ensures RandomStrategy(urls, i) == Some(urls[i])
  {
  }

  /** No layer changes the method or the body, on any attempt. */
  lemma {:induction false} InvokeKeepsVerbBody(env: Env, c: Client, req: Request, w: World)
    ensures var r := Invoke(env, c, req, w);
            && (r.Returned? ==> r.req.verb == req.verb && r.req.body == req.body)
            && forall e :: e in Sends(Delta(w, r.w)) ==> e.req.verb == req.verb && e.req.body == req.body
    decreases c, 0
  {
    var r := Invoke(env, c, req, w);
    match c
    case Base =>
      assert Delta(w, r.w) == [Sent(w.calls, req, r.out)];
    case Wrapped(d, inner) =>
      match d
      case Logging =>
        var w1 := w.(trace := w.trace + [Logged(req)]);
        InvokeKeepsVerbBody(env, inner, req, w1);
        assert Delta(w, r.w) == [Logged(req)] + Delta(w1, r.w);
        ViewsAppend([Logged(req)], Delta(w1, r.w));
      case SetHeader(key, value) =>
        InvokeKeepsVerbBody(env, inner, SetHeaderValue(req, key, value), w);
      case LoadBalancer(s, urls) =>
        match Choose(env, s, urls, w) {
          case None =>
            assert Delta(w, r.w) == [];
          case Some((u, w')) =>
            InvokeKeepsVerbBody(env, inner, req.(url := u), w');
            assert Delta(w, r.w) == Delta(w', r.w);
        }
      case Retry(cell, interval) =>
        RetryLoopKeepsVerbBody(env, cell, interval, inner, req, w, NilOutcome);
      case RetryPerCall(attempts, interval) =>
        PerCallLoopKeepsVerbBody(env, attempts, interval, inner, req, w, NilOutcome);
  }

  lemma {:induction false} RetryLoopKeepsVerbBody(env: Env, cell: nat, interval: int, inner: Client, req: Request, w: World, last: Outcome)
    ensures var r := RetryLoop(env, cell, interval, inner, req, w, last);
            && (r.Returned? && r.req != req ==> r.req.verb == req.verb && r.req.body == req.body)
            && forall e :: e in Sends(Delta(w, r.w)) ==> e.req.verb == req.verb && e.req.body == req.body
    decreases inner, if Counter(w, cell) > 0 then Counter(w, cell) + 1 else 0, 1
  {
    if Counter(w, cell) > 0 {
      InvokeKeepsVerbBody(env, inner, req, w);
      match Invoke(env, inner, req, w)
      case Panicked(w1) =>
      case Returned(q1, out1, w1) =>
        if out1.Failed() {
          RetryLoopFailure(env, cell, interval, inner, req, w, last, q1, out1, w1);
          RetryFailKeepsVerbBody(env, cell, interval, inner, req, q1, out1, w, w1);
        }
    } else {
      assert Delta(w, w) == [];
    }
  }

  /**
   The rest of `RetryLoopKeepsVerbBody` after a failed attempt that kept
   method and body and took the world from `w` to `w1`.
   */
  lemma {:induction false} RetryFailKeepsVerbBody(env: Env, cell: nat, interval: int, inner: Client, req: Request, q1: Request, out1: Outcome,
                                                  w: World, w1: World)
    requires w.trace <= w1.trace && cell < |w1.counters| && out1.Failed()
    requires q1.verb == req.verb && q1.body == req.body
    requires forall e :: e in Sends(Delta(w, w1)) ==> e.req.verb == req.verb && e.req.body == req.body
    ensures var w2 := AfterFailure(Decrement(w1, cell), out1.err.value, interval);
            var r := RetryLoop(env, cell, interval, inner, q1, w2, out1);
            && (r.Returned? ==> r.req.verb == req.verb && r.req.body == req.body)
            && forall e :: e in Sends(Delta(w, r.w)) ==> e.req.verb == req.verb && e.req.body == req.body
    decreases inner, if Counter(w1, cell) > 0 then Counter(w1, cell) + 1 else 1, 0
  {
    var w2 := AfterFailure(Decrement(w1, cell), out1.err.value, interval);
    RetryLoopKeepsVerbBody(env, cell, interval, inner, q1, w2, out1);
    var r := RetryLoop(env, cell, interval, inner, q1, w2, out1);
    FailureKeepsVerbBody(req, w, w1, w2, r.w, out1.err.value, interval);
  }

  lemma {:induction false} PerCallLoopKeepsVerbBody(env: Env, remaining: int, interval: int, inner: Client, req: Request, w: World, last: Outcome)
    ensures var r := PerCallLoop(env, remaining, interval, inner, req, w, last);
            && (r.Returned? && r.req != req ==> r.req.verb == req.verb && r.req.body == req.body)
            && forall e :: e in Sends(Delta(w, r.w)) ==> e.req.verb == req.verb && e.req.body == req.body
    decreases inner, if remaining > 0 then remaining + 1 else 0, 1
  {
    if remaining > 0 {
      InvokeKeepsVerbBody(env, inner, req, w);
      match Invoke(env, inner, req, w)
      case Panicked(w1) =>
      case Returned(q1, out1, w1) =>
        if out1.Failed() {
          PerCallLoopFailure(env, remaining, interval, inner, req, w, last, q1, out1, w1);
          PerCallFailKeepsVerbBody(env, remaining, interval, inner, req, q1, out1, w, w1);
        }
    } else {
      assert Delta(w, w) == [];
    }
  }

  /**
   The rest of `PerCallLoopKeepsVerbBody` after a failed attempt that kept
   method and body and took the world from `w` to `w1`.
   */
  lemma {:induction false} PerCallFailKeepsVerbBody(env: Env, remaining: int, interval: int, inner: Client, req: Request, q1: Request, out1: Outcome,
                                                    w: World, w1: World)
    requires remaining > 0 && w.trace <= w1.trace && out1.Failed()
    requires q1.verb == req.verb && q1.body == req.body
    requires forall e :: e in Sends(Delta(w, w1)) ==> e.req.verb == req.verb && e.req.body == req.body
    ensures var w2 := AfterFailure(w1, out1.err.value, interval);
            var r := PerCallLoop(env, remaining - 1, interval, inner, q1, w2, out1);
            && (r.Returned? ==> r.req.verb == req.verb && r.req.body == req.body)
            && forall e :: e in Sends(Delta(w, r.w)) ==> e.req.verb == req.verb && e.req.body == req.body
    decreases inner, remaining + 1, 0
  {
    var w2 := AfterFailure(w1, out1.err.value, interval);
    PerCallLoopKeepsVerbBody(env, remaining - 1, interval, inner, q1, w2, out1);
    var r := PerCallLoop(env, remaining - 1, interval, inner, q1, w2, out1);
    FailureKeepsVerbBody(req, w, w1, w2, r.w, out1.err.value, interval);
  }

  /**
   Exchanges before a failure report and after it, both keeping method and
   body, keep them together: the report and the sleep send nothing.
   */
  lemma FailureKeepsVerbBody(req: Request, w: World, w1: World, w2: World, w3: World, err: Error, interval: int)
    requires w.trace <= w1.trace && w2.trace == w1.trace + [RetryLogged(err), Slept(interval)] && w2.trace <= w3.trace
    requires forall e :: e in Sends(Delta(w, w1)) ==> e.req.verb == req.verb && e.req.body == req.body
    requires forall e :: e in Sends(Delta(w2, w3)) ==> e.req.verb == req.verb && e.req.body == req.body
    ensures forall e :: e in Sends(Delta(w, w3)) ==> e.req.verb == req.verb && e.req.body == req.body
  {
    var tail := [RetryLogged(err), Slept(interval)];
    DeltaSplit(w, w1, w2, w3, tail);
    ViewsAppend(Delta(w, w1) + tail, Delta(w2, w3));
    ViewsAppend(Delta(w, w1), tail);
    assert Sends(tail) == [];
  }
}

=== FILE: retry_laws.dfy ===
/**
 The retry layer of hottp.go over an inner chain without retry layers: how
 many attempts it makes, which result it returns, and what it does to the
 captured counter, the log and the sleeps.
 */
module RetryLaws {
  import opened Http
  import opened Hottp
  import opened Traces
  import opened SinglePass

  /**
   The exchanges `s` are numbered consecutively from `calls`, each answered by
   the transport for its own number and request, and carry the requests of
   `|s|` successive passes through `inner`: the first what one pass makes of
   `req`, each later one what a pass makes of the request before it.
   */
  ghost predicate SendsFrom(env: Env, inner: Client, req: Request, calls: nat, draws: nat, s: seq<Event>)
    requires Simple(inner)
  {
    forall i :: 0 <= i < |s| ==>
      s[i].Sent? && s[i].n == calls + i && s[i].out == env.transport(calls + i, s[i].req)
      && s[i].req == Delivers(env, inner, req, draws, |s|)[i]
  }

  /** Every exchange in `s` ended in an error. */
  ghost predicate AllFailed(s: seq<Event>)
  {
    forall i :: 0 <= i < |s| ==> s[i].Sent? && s[i].out.Failed()
  }

  /**
   What one invocation of `Retry(cell, _)` around `inner` does, starting from
   `w` with the counter positive and ending in `r`:
   - it makes `n` attempts, `1 <= n <=` the counter, each one exchange; the
     first sends what the inner chain makes of `req`, each later one what it
     makes of the request the previous attempt sent, and that last request is
     the one returned;
   - every attempt but the last failed, and the last attempt's `(res, err)` is
     returned verbatim, so the first success is returned at once;
   - right after each failed exchange, before anything else but request
     logging, the layer logs that exchange's own error once and sleeps
     `interval` once, the last failure included; each failure decrements the
     counter and successes do not;
   - a failing result means the counter was used up, to exactly 0;
   - the decremented counter stays in the world for later invocations;
     no other counter changes.
   */
  ghost predicate RetrySpec(env: Env, cell: nat, interval: int, inner: Client, req: Request, w: World, r: Step)
    requires Simple(inner)
  {
    AttemptSpec(env, cell, inner, req, w, r) && AccountSpec(cell, inner, w, r) && Paced(interval, w, r.w)
  }

  /**
   The timeline hottp.go:61-67 makes of the exchanges `s`: each exchange in
   turn, and right after each failed one the `retrying..` line with its own
   error and one sleep of `interval`.
   */
  function RetryTimeline(s: seq<Event>, interval: int): seq<Event>
  {
    if |s| == 0 then []
    else
      [s[0]]
      + (if s[0].Sent? && s[0].out.Failed() then [RetryLogged(s[0].out.err.value), Slept(interval)] else [])
      + RetryTimeline(s[1..], interval)
  }

  /**
   Between `w` and `w'`, apart from request logging, the trace is exactly
   the exchanges, each failed one followed by its error logged and one sleep
   of `interval`, and nothing else.
   */
  ghost predicate Paced(interval: int, w: World, w': World)
  {
    var d := Delta(w, w');
    Timeline(d) == RetryTimeline(Sends(d), interval)
  }

  /** A single successful pass is paced: its timeline is its one exchange. */
  lemma PacedSuccess(interval: int, w: World, w1: World, e: Event)
    requires e.Sent? && !e.out.Failed()
    requires Sends(Delta(w, w1)) == [e] && Sleeps(Delta(w, w1)) == 0 && RetryLogs(Delta(w, w1)) == 0
    ensures Paced(interval, w, w1)
  {
    QuietTimeline(Delta(w, w1));
    assert [e][1..] == [];
  }

  /**
   A failed pass, then its error logged and one sleep, then a paced run:
   paced from the start.
   */
  lemma PacedFailure(interval: int, w: World, w1: World, w2: World, w3: World, e: Event)
    requires e.Sent? && e.out.Failed()
    requires w.trace <= w1.trace && w2.trace == w1.trace + [RetryLogged(e.out.err.value), Slept(interval)] && w2.trace <= w3.trace
    requires Sends(Delta(w, w1)) == [e] && Sleeps(Delta(w, w1)) == 0 && RetryLogs(Delta(w, w1)) == 0
    requires Paced(interval, w2, w3)
    ensures Paced(interval, w, w3)
  {
    var tail := [RetryLogged(e.out.err.value), Slept(interval)];
    var d1, d2 := Delta(w, w1), Delta(w2, w3);
    DeltaSplit(w, w1, w2, w3, tail);
    TimelineAppend(d1 + tail, d2);
    TimelineAppend(d1, tail);
    ViewsAppend(d1 + tail, d2);
    ViewsAppend(d1, tail);
    QuietTimeline(d1);
    FailureEvents(e.out.err.value, interval);
    assert Timeline(tail) == tail by {
      assert tail[1..] == [Slept(interval)] && tail[1..][1..] == [];
    }
    var s2 := Sends(d2);
    assert ([e] + s2)[1..] == s2;
  }

  /** The attempts and the returned result. */
  ghost predicate AttemptSpec(env: Env, cell: nat, inner: Client, req: Request, w: World, r: Step)
    requires Simple(inner)
  {
    AttemptCount(cell, w, r) && AttemptSends(env, inner, req, w, r)
  }

  /** How many attempts there were, which of them failed, and what became of the counter. */
  ghost predicate AttemptCount(cell: nat, w: World, r: Step)
  {
    var start := Counter(w, cell);
    var sends := Sends(Delta(w, r.w));
    var n := |sends|;
    && r.Returned?
    && 1 <= n <= start
    && r.out == sends[n - 1].out
    && AllFailed(sends[..n - 1])
    && (r.out.Failed() ==> n == start && Counter(r.w, cell) == 0)
    && (!r.out.Failed() ==> Counter(r.w, cell) == start - (n - 1))
    && r.w.calls == w.calls + n
  }

  /** Which requests the attempts sent: successive passes from `req`, the last one returned. */
  ghost predicate AttemptSends(env: Env, inner: Client, req: Request, w: World, r: Step)
    requires Simple(inner)
  {
    var sends := Sends(Delta(w, r.w));
    && r.Returned?
    && |sends| >= 1
    && SendsFrom(env, inner, req, w.calls, w.draws, sends)
    && r.req == sends[|sends| - 1].req
  }

  /** Logging, sleeping, draws and the other counters. */
  ghost predicate AccountSpec(cell: nat, inner: Client, w: World, r: Step)
  {
    var start := Counter(w, cell);
    var d := Delta(w, r.w);
    var n := |Sends(d)|;
    && Sleeps(d) == start - Counter(r.w, cell)
    && RetryLogs(d) == start - Counter(r.w, cell)
    && Logs(d) == n * LoggingCount(inner)
    && r.w.draws == w.draws + n * DrawCount(inner)
    && |r.w.counters| == |w.counters|
    && (forall i :: 0 <= i < |w.counters| && i != cell ==> r.w.counters[i] == w.counters[i])
  }

  /** `RetrySpec` holds of every invocation of a retry layer whose counter is positive. */
  lemma RetryRun(env: Env, cell: nat, interval: int, inner: Client, req: Request, w: World)
    requires Simple(inner) && Counter(w, cell) > 0
    ensures RetrySpec(env, cell, interval, inner, req, w, Invoke(env, Wrapped(Retry(cell, interval), inner), req, w))
  {
    RetryLoopRun(env, cell, interval, inner, req, w, NilOutcome);
  }

  /** A retry layer whose counter is 0 or below makes no call and returns `(nil, nil)`, the request and the world untouched. */
  lemma RetryIdle(env: Env, cell: nat, interval: int, inner: Client, req: Request, w: World)
    requires Counter(w, cell) <= 0
    ensures Invoke(env, Wrapped(Retry(cell, interval), inner), req, w) == Returned(req, NilOutcome, w)
  {
  }

  lemma {:induction false} RetryLoopRun(env: Env, cell: nat, interval: int, inner: Client, req: Request, w: World, last: Outcome)
    requires Simple(inner) && Counter(w, cell) > 0
    ensures RetrySpec(env, cell, interval, inner, req, w, RetryLoop(env, cell, interval, inner, req, w, last))
    decreases Counter(w, cell), 1
  {
    OnePass(env, inner, req, w);
    match Invoke(env, inner, req, w)
    case Returned(q1, out1, w1) =>
      if !out1.Failed() {
        assert RetryLoop(env, cell, interval, inner, req, w, last) == Returned(q1, out1, w1);
        SuccessStep(env, cell, interval, inner, req, w, q1, out1, w1);
      } else {
        RetryLoopFailure(env, cell, interval, inner, req, w, last, q1, out1, w1);
        RetryFailureBranch(env, cell, interval, inner, req, w, q1, out1, w1);
      }
  }

  /** The rest of `RetryLoopRun` after a failed first attempt that returned `(q1, out1)` in `w1`. */
  lemma {:induction false} RetryFailureBranch(env: Env, cell: nat, interval: int, inner: Client, req: Request, w: World,
                                              q1: Request, out1: Outcome, w1: World)
    requires Simple(inner) && Counter(w, cell) > 0
    requires PassResult(env, inner, req, w, q1, out1, w1) && out1.Failed()
    ensures cell < |w1.counters|
    ensures var w2 := AfterFailure(Decrement(w1, cell), out1.err.value, interval);
            RetrySpec(env, cell, interval, inner, req, w, RetryLoop(env, cell, interval, inner, q1, w2, out1))
    decreases Counter(w, cell), 0
  {
    var w2 := AfterFailure(Decrement(w1, cell), out1.err.value, interval);
    if Counter(w, cell) == 1 {
      assert RetryLoop(env, cell, interval, inner, q1, w2, out1) == Returned(q1, out1, w2);
      LastFailureStep(env, cell, interval, inner, req, w, q1, out1, w1);
    } else {
      RetryLoopRun(env, cell, interval, inner, q1, w2, out1);
      FailureStep(env, cell, interval, inner, req, w, q1, out1, w1, RetryLoop(env, cell, interval, inner, q1, w2, out1));
    }
  }

  /** The one exchange of a pass is the first of the successive passes from `req`, numbered `w.calls`. */
  lemma FirstSend(env: Env, inner: Client, req: Request, w: World, q1: Request, out1: Outcome, w1: World)
    requires Simple(inner) && PassResult(env, inner, req, w, q1, out1, w1)
    ensures SendsFrom(env, inner, req, w.calls, w.draws, Sends(Delta(w, w1)))
  {
    assert Delivers(env, inner, req, w.draws, 1)[0] == q1;
  }

  lemma SuccessStep(env: Env, cell: nat, interval: int, inner: Client, req: Request, w: World, q1: Request, out1: Outcome, w1: World)
    requires Simple(inner) && Counter(w, cell) > 0
    requires PassResult(env, inner, req, w, q1, out1, w1) && !out1.Failed()
    ensures RetrySpec(env, cell, interval, inner, req, w, Returned(q1, out1, w1))
  {
    FirstSend(env, inner, req, w, q1, out1, w1);
    PacedSuccess(interval, w, w1, Sent(w.calls, q1, out1));
    assert Sends(Delta(w, w1))[..0] == [];
  }

  /** The events one failure adds: one retry log line and one sleep. */
  lemma FailureEvents(err: Error, interval: int)
    ensures var tail := [RetryLogged(err), Slept(interval)];
            Sends(tail) == [] && Logs(tail) == 0 && Sleeps(tail) == 1 && RetryLogs(tail) == 1
  {
    var tail := [RetryLogged(err), Slept(interval)];
    var rest := [Slept(interval)];
    assert tail[1..] == rest && rest[1..] == [];
    assert Logs(rest) == 0 && Sleeps(rest) == 1 && RetryLogs(rest) == 0 && Sends(rest) == [];
  }

  lemma LastFailureStep(env: Env, cell: nat, interval: int, inner: Client, req: Request, w: World, q1: Request, out1: Outcome, w1: World)
    requires Simple(inner) && Counter(w, cell) == 1
    requires PassResult(env, inner, req, w, q1, out1, w1) && out1.Failed()
    ensures RetrySpec(env, cell, interval, inner, req, w, Returned(q1, out1, AfterFailure(Decrement(w1, cell), out1.err.value, interval)))
  {
    FirstSend(env, inner, req, w, q1, out1, w1);
    var w2 := AfterFailure(Decrement(w1, cell), out1.err.value, interval);
    LastFailureEvents(w, w1, w2, out1.err.value, interval);
    LastFailurePaced(interval, w, w1, w2, Sent(w.calls, q1, out1));
    assert Sends(Delta(w, w2))[..0] == [];
  }

  /** The events of a single failed attempt: those of the pass, then one retry log line and one sleep. */
  lemma LastFailureEvents(w: World, w1: World, w2: World, err: Error, interval: int)
    requires w.trace <= w1.trace && w2.trace == w1.trace + [RetryLogged(err), Slept(interval)]
    ensures var d1, d := Delta(w, w1), Delta(w, w2);
            && Sends(d) == Sends(d1) && Logs(d) == Logs(d1)
            && Sleeps(d) == Sleeps(d1) + 1 && RetryLogs(d) == RetryLogs(d1) + 1
  {
    var tail := [RetryLogged(err), Slept(interval)];
    DeltaSplit(w, w1, w2, w2, tail);
    assert Delta(w2, w2) == [];
    assert Delta(w, w2) == Delta(w, w1) + tail;
    ViewsAppend(Delta(w, w1), tail);
    FailureEvents(err, interval);
  }

  /** A single failed pass, then its error logged and one sleep: paced. */
  lemma LastFailurePaced(interval: int, w: World, w1: World, w2: World, e: Event)
    requires e.Sent? && e.out.Failed()
    requires w.trace <= w1.trace && w2.trace == w1.trace + [RetryLogged(e.out.err.value), Slept(interval)]
    requires Sends(Delta(w, w1)) == [e] && Sleeps(Delta(w, w1)) == 0 && RetryLogs(Delta(w, w1)) == 0
    ensures Paced(interval, w, w2)
  {
    assert Delta(w2, w2) == [];
    PacedFailure(interval, w, w1, w2, w2, e);
  }

  /** A failed first attempt in front of a run that meets `RetrySpec` makes a run that meets it. */
  lemma FailureStep(env: Env, cell: nat, interval: int, inner: Client, req: Request, w: World, q1: Request, out1: Outcome, w1: World, r: Step)
    requires Simple(inner) && Counter(w, cell) > 1
    requires PassResult(env, inner, req, w, q1, out1, w1) && out1.Failed()
    requires var w2 := AfterFailure(Decrement(w1, cell), out1.err.value, interval);
             w2.trace <= r.w.trace && RetrySpec(env, cell, interval, inner, q1, w2, r)
    ensures RetrySpec(env, cell, interval, inner, req, w, r)
  {
    FirstSend(env, inner, req, w, q1, out1, w1);
    var w2 := AfterFailure(Decrement(w1, cell), out1.err.value, interval);
    PacedFailure(interval, w, w1, w2, r.w, Sent(w.calls, q1, out1));
    var d1, d2 := Delta(w, w1), Delta(w2, r.w);
    var tail := [RetryLogged(out1.err.value), Slept(interval)];
    DeltaSplit(w, w1, w2, r.w, tail);
    ViewsAppend(d1 + tail, d2);
    ViewsAppend(d1, tail);
    FailureEvents(out1.err.value, interval);
    FailureAttempts(env, cell, interval, inner, req, w, q1, out1, w1, r);
    FailureAccount(cell, interval, inner, w, out1, w1, r);
  }

  /**
   Prepending the exchange of one pass from `req` to the exchanges of the
   passes that start from what it delivered gives the passes from `req`.
   */
  lemma SendsFromCons(env: Env, inner: Client, req: Request, calls: nat, draws: nat, e: Event, s: seq<Event>)
    requires Simple(inner)
    requires var p := Deliver(env, inner, req, draws);
             && e == Sent(calls, p.0, env.transport(calls, p.0))
             && SendsFrom(env, inner, p.0, calls + 1, p.1, s)
    ensures SendsFrom(env, inner, req, calls, draws, [e] + s)
  {
    var p := Deliver(env, inner, req, draws);
    var s' := [e] + s;
    var all := Delivers(env, inner, req, draws, |s'|);
    var rest := Delivers(env, inner, p.0, p.1, |s|);
    assert all == [p.0] + rest;
    forall i | 0 <= i < |s'|
      ensures s'[i].Sent? && s'[i].n == calls + i && s'[i].out == env.transport(calls + i, s'[i].req)
              && s'[i].req == all[i]
    {
      if i > 0 {
        assert s'[i] == s[i - 1] && all[i] == rest[i - 1];
      }
    }
  }

  /** Prepending a failed exchange to a run whose earlier attempts failed keeps them failed. */
  lemma AllFailedCons(e: Event, s: seq<Event>)
    requires |s| >= 1 && e.Sent? && e.out.Failed() && AllFailed(s[..|s| - 1])
    ensures ([e] + s)[..|s|] == [e] + s[..|s| - 1]
    ensures AllFailed(([e] + s)[..|s|])
  {
    assert ([e] + s)[..|s|] == [e] + s[..|s| - 1];
  }

  lemma FailureAttempts(env: Env, cell: nat, interval: int, inner: Client, req: Request, w: World,
                         q1: Request, out1: Outcome, w1: World, r: Step)
    requires Simple(inner) && Counter(w, cell) > 1
    requires out1.Failed() && w1.counters == w.counters && w1.calls == w.calls + 1
    requires var p := Deliver(env, inner, req, w.draws);
             && q1 == p.0 && w1.draws == p.1 && out1 == env.transport(w.calls, q1)
             && Sends(Delta(w, w1)) == [Sent(w.calls, q1, out1)]
    requires var w2 := AfterFailure(Decrement(w1, cell), out1.err.value, interval);
             && AttemptSpec(env, cell, inner, q1, w2, r)
             && Sends(Delta(w, r.w)) == Sends(Delta(w, w1)) + Sends(Delta(w2, r.w))
    ensures AttemptSpec(env, cell, inner, req, w, r)
  {
    var w2 := AfterFailure(Decrement(w1, cell), out1.err.value, interval);
    SendsStep(env, inner, req, w, q1, out1, w2, r);
    FailureCount(cell, interval, w, q1, out1, w1, r);
  }

  /**
   A failed attempt from `req` in front of attempts that start from what it
   delivered, in the world `w2` after the failure: attempts from `req`.
   */
  lemma SendsStep(env: Env, inner: Client, req: Request, w: World, q1: Request, out1: Outcome, w2: World, r: Step)
    requires Simple(inner)
    requires var p := Deliver(env, inner, req, w.draws);
             && q1 == p.0 && w2.draws == p.1 && w2.calls == w.calls + 1
             && out1 == env.transport(w.calls, q1)
    requires AttemptSends(env, inner, q1, w2, r)
    requires Sends(Delta(w, r.w)) == [Sent(w.calls, q1, out1)] + Sends(Delta(w2, r.w))
    ensures AttemptSends(env, inner, req, w, r)
  {
    var s2 := Sends(Delta(w2, r.w));
    SendsFromCons(env, inner, req, w.calls, w.draws, Sent(w.calls, q1, out1), s2);
    assert ([Sent(w.calls, q1, out1)] + s2)[|s2|] == s2[|s2| - 1];
  }

  lemma FailureCount(cell: nat, interval: int, w: World, q1: Request, out1: Outcome, w1: World, r: Step)
    requires Counter(w, cell) > 1 && out1.Failed()
    requires w1.counters == w.counters && w1.calls == w.calls + 1
    requires Sends(Delta(w, w1)) == [Sent(w.calls, q1, out1)]
    requires var w2 := AfterFailure(Decrement(w1, cell), out1.err.value, interval);
             && AttemptCount(cell, w2, r)
             && Sends(Delta(w, r.w)) == Sends(Delta(w, w1)) + Sends(Delta(w2, r.w))
    ensures AttemptCount(cell, w, r)
  {
    var w2 := AfterFailure(Decrement(w1, cell), out1.err.value, interval);
    AllFailedCons(Sent(w.calls, q1, out1), Sends(Delta(w2, r.w)));
  }

  lemma FailureAccount(cell: nat, interval: int, inner: Client, w: World, out1: Outcome, w1: World, r: Step)
    requires out1.Failed() && Counter(w, cell) > 1
    requires w1.counters == w.counters && w1.draws == w.draws + DrawCount(inner)
    requires Logs(Delta(w, w1)) == LoggingCount(inner) && |Sends(Delta(w, w1))| == 1
    requires Sleeps(Delta(w, w1)) == 0 && RetryLogs(Delta(w, w1)) == 0
    requires var w2 := AfterFailure(Decrement(w1, cell), out1.err.value, interval);
             var tail := [RetryLogged(out1.err.value), Slept(interval)];
             && AccountSpec(cell, inner, w2, r)
             && Delta(w, r.w) == Delta(w, w1) + tail + Delta(w2, r.w)
             && Sends(tail) == [] && Logs(tail) == 0 && Sleeps(tail) == 1 && RetryLogs(tail) == 1
    ensures AccountSpec(cell, inner, w, r)
  {
    var w2 := AfterFailure(Decrement(w1, cell), out1.err.value, interval);
    var tail := [RetryLogged(out1.err.value), Slept(interval)];
    var d1, d2 := Delta(w, w1), Delta(w2, r.w);
    ViewsAppend(d1 + tail, d2);
    ViewsAppend(d1, tail);
    var n2 := |Sends(d2)|;
    assert |Sends(Delta(w, r.w))| == 1 + n2;
    assert Logs(Delta(w, r.w)) == LoggingCount(inner) + n2 * LoggingCount(inner) == (1 + n2) * LoggingCount(inner);
    assert r.w.draws == w.draws + DrawCount(inner) + n2 * DrawCount(inner) == w.draws + (1 + n2) * DrawCount(inner);
  }

  /**
   What one invocation of the corrected layer `RetryPerCall(attempts, _)`
   does: the same attempts and result as `AttemptSpec`, bounded by `attempts`
   itself on every invocation, one `retrying..` line and one sleep per
   failure, placed right after it as `Paced` says, and no retry counter in the
   world changes.
   */
  ghost predicate PerCallSpec(env: Env, attempts: int, interval: int, inner: Client, req: Request, w: World, r: Step)
    requires Simple(inner)
  {
    PerCallAttempts(env, attempts, inner, req, w, r) && PerCallAccount(w, r) && Paced(interval, w, r.w)
  }

  ghost predicate PerCallAttempts(env: Env, attempts: int, inner: Client, req: Request, w: World, r: Step)
    requires Simple(inner)
  {
    PerCallCount(attempts, w, r) && AttemptSends(env, inner, req, w, r)
  }

  /** How many attempts there were against the budget, and which of them failed. */
  ghost predicate PerCallCount(attempts: int, w: World, r: Step)
  {
    var sends := Sends(Delta(w, r.w));
    var n := |sends|;
    && r.Returned?
    && 1 <= n <= attempts
    && r.out == sends[n - 1].out
    && AllFailed(sends[..n - 1])
    && (r.out.Failed() ==> n == attempts)
    && r.w.calls == w.calls + n
  }

  ghost predicate PerCallAccount(w: World, r: Step)
  {
    var d := Delta(w, r.w);
    var n := |Sends(d)|;
    && r.Returned?
    && Sleeps(d) == (if r.out.Failed() then n else n - 1)
    && RetryLogs(d) == Sleeps(d)
    && r.w.counters == w.counters
  }

  /** `PerCallSpec` holds of every invocation of the corrected layer with a positive budget. */
  lemma PerCallRun(env: Env, attempts: int, interval: int, inner: Client, req: Request, w: World)
    requires Simple(inner) && attempts > 0
    ensures PerCallSpec(env, attempts, interval, inner, req, w, Invoke(env, Wrapped(RetryPerCall(attempts, interval), inner), req, w))
  {
    PerCallLoopRun(env, attempts, interval, inner, req, w, NilOutcome);
  }

  lemma {:induction false} PerCallLoopRun(env: Env, remaining: int, interval: int, inner: Client, req: Request, w: World, last: Outcome)
    requires Simple(inner) && remaining > 0
    ensures PerCallSpec(env, remaining, interval, inner, req, w, PerCallLoop(env, remaining, interval, inner, req, w, last))
    decreases remaining, 1
  {
    OnePass(env, inner, req, w);
    match Invoke(env, inner, req, w)
    case Returned(q1, out1, w1) =>
      if !out1.Failed() {
        assert PerCallLoop(env, remaining, interval, inner, req, w, last) == Returned(q1, out1, w1);
        PerCallSuccess(env, remaining, interval, inner, req, w, q1, out1, w1);
      } else {
        PerCallLoopFailure(env, remaining, interval, inner, req, w, last, q1, out1, w1);
        PerCallFailureBranch(env, remaining, interval, inner, req, w, q1, out1, w1);
      }
  }

  lemma PerCallSuccess(env: Env, remaining: int, interval: int, inner: Client, req: Request, w: World, q1: Request, out1: Outcome, w1: World)
    requires Simple(inner) && remaining > 0
    requires PassResult(env, inner, req, w, q1, out1, w1) && !out1.Failed()
    ensures PerCallSpec(env, remaining, interval, inner, req, w, Returned(q1, out1, w1))
  {
    FirstSend(env, inner, req, w, q1, out1, w1);
    PacedSuccess(interval, w, w1, Sent(w.calls, q1, out1));
    assert Sends(Delta(w, w1))[..0] == [];
  }

  /** The rest of `PerCallLoopRun` after a failed first attempt that returned `(q1, out1)` in `w1`. */
  lemma {:induction false} PerCallFailureBranch(env: Env, remaining: int, interval: int, inner: Client, req: Request, w: World,
                                                q1: Request, out1: Outcome, w1: World)
    requires Simple(inner) && remaining > 0
    requires PassResult(env, inner, req, w, q1, out1, w1) && out1.Failed()
    ensures var w2 := AfterFailure(w1, out1.err.value, interval);
            PerCallSpec(env, remaining, interval, inner, req, w, PerCallLoop(env, remaining - 1, interval, inner, q1, w2, out1))
    decreases remaining, 0
  {
    var w2 := AfterFailure(w1, out1.err.value, interval);
    if remaining == 1 {
      assert PerCallLoop(env, 0, interval, inner, q1, w2, out1) == Returned(q1, out1, w2);
      PerCallLastFailure(env, interval, inner, req, w, q1, out1, w1);
    } else {
      PerCallLoopRun(env, remaining - 1, interval, inner, q1, w2, out1);
      PerCallFailureStep(env, remaining, interval, inner, req, w, q1, out1, w1, PerCallLoop(env, remaining - 1, interval, inner, q1, w2, out1));
    }
  }

  lemma PerCallLastFailure(env: Env, interval: int, inner: Client, req: Request, w: World, q1: Request, out1: Outcome, w1: World)
    requires Simple(inner) && PassResult(env, inner, req, w, q1, out1, w1) && out1.Failed()
    ensures PerCallSpec(env, 1, interval, inner, req, w, Returned(q1, out1, AfterFailure(w1, out1.err.value, interval)))
  {
    FirstSend(env, inner, req, w, q1, out1, w1);
    var w2 := AfterFailure(w1, out1.err.value, interval);
    LastFailureEvents(w, w1, w2, out1.err.value, interval);
    LastFailurePaced(interval, w, w1, w2, Sent(w.calls, q1, out1));
    assert Sends(Delta(w, w2))[..0] == [];
  }

  /** A failed first attempt in front of a run that meets `PerCallSpec` with one attempt fewer makes a run that meets it. */
  lemma PerCallFailureStep(env: Env, remaining: int, interval: int, inner: Client, req: Request, w: World,
                           q1: Request, out1: Outcome, w1: World, r: Step)
    requires Simple(inner) && remaining > 1
    requires PassResult(env, inner, req, w, q1, out1, w1) && out1.Failed()
    requires var w2 := AfterFailure(w1, out1.err.value, interval);
             w2.trace <= r.w.trace && PerCallSpec(env, remaining - 1, interval, inner, q1, w2, r)
    ensures PerCallSpec(env, remaining, interval, inner, req, w, r)
  {
    FirstSend(env, inner, req, w, q1, out1, w1);
    FailureEvents(out1.err.value, interval);
    var w2 := AfterFailure(w1, out1.err.value, interval);
    PacedFailure(interval, w, w1, w2, r.w, Sent(w.calls, q1, out1));
    var tail := [RetryLogged(out1.err.value), Slept(interval)];
    var d1, d2 := Delta(w, w1), Delta(w2, r.w);
    DeltaSplit(w, w1, w2, r.w, tail);
    ViewsAppend(d1 + tail, d2);
    ViewsAppend(d1, tail);
    PerCallAttemptsStep(env, remaining, interval, inner, req, w, q1, out1, w1, r);
    PerCallAccountStep(interval, w, out1, w1, r);
  }

  lemma PerCallAttemptsStep(env: Env, remaining: int, interval: int, inner: Client, req: Request, w: World,
                             q1: Request, out1: Outcome, w1: World, r: Step)
    requires Simple(inner) && remaining > 1 && out1.Failed() && w1.calls == w.calls + 1
    requires var p := Deliver(env, inner, req, w.draws);
             && q1 == p.0 && w1.draws == p.1 && out1 == env.transport(w.calls, q1)
             && Sends(Delta(w, w1)) == [Sent(w.calls, q1, out1)]
    requires var w2 := AfterFailure(w1, out1.err.value, interval);
             && PerCallAttempts(env, remaining - 1, inner, q1, w2, r)
             && Sends(Delta(w, r.w)) == Sends(Delta(w, w1)) + Sends(Delta(w2, r.w))
    ensures PerCallAttempts(env, remaining, inner, req, w, r)
  {
    var w2 := AfterFailure(w1, out1.err.value, interval);
    SendsStep(env, inner, req, w, q1, out1, w2, r);
    PerCallCountStep(remaining, interval, w, q1, out1, w1, r);
  }

  lemma PerCallCountStep(remaining: int, interval: int, w: World, q1: Request, out1: Outcome, w1: World, r: Step)
    requires remaining > 1 && out1.Failed() && w1.calls == w.calls + 1
    requires Sends(Delta(w, w1)) == [Sent(w.calls, q1, out1)]
    requires var w2 := AfterFailure(w1, out1.err.value, interval);
             && PerCallCount(remaining - 1, w2, r)
             && Sends(Delta(w, r.w)) == Sends(Delta(w, w1)) + Sends(Delta(w2, r.w))
    ensures PerCallCount(remaining, w, r)
  {
    var w2 := AfterFailure(w1, out1.err.value, interval);
    AllFailedCons(Sent(w.calls, q1, out1), Sends(Delta(w2, r.w)));
  }

  lemma PerCallAccountStep(interval: int, w: World, out1: Outcome, w1: World, r: Step)
    requires out1.Failed() && w1.counters == w.counters
    requires |Sends(Delta(w, w1))| == 1 && Sleeps(Delta(w, w1)) == 0 && RetryLogs(Delta(w, w1)) == 0
    requires var w2 := AfterFailure(w1, out1.err.value, interval);
             && PerCallAccount(w2, r)
             && Sends(Delta(w, r.w)) == Sends(Delta(w, w1)) + Sends(Delta(w2, r.w))
             && Sleeps(Delta(w, r.w)) == Sleeps(Delta(w, w1)) + 1 + Sleeps(Delta(w2, r.w))
             && RetryLogs(Delta(w, r.w)) == RetryLogs(Delta(w, w1)) + 1 + RetryLogs(Delta(w2, r.w))
    ensures PerCallAccount(w, r)
  {
  }
}

=== FILE: scenarios.dfy ===
/**
 Whole-call consequences of the layer laws: how many attempts, sleeps and log
 lines a retry layer produces for a given transport behaviour, which of two
 header layers wins, what the composition of cmd/main.go sends, and the
 consequence of the shared retry counter.
 */
module Scenarios {
  import opened Wrappers
  import opened Strings
  import opened Http
  import opened Hottp
  import opened Traces
  import opened LayerLaws
  import opened SinglePass
  import opened RetryLaws

  /**
   A transport that fails its first `k` exchanges from call number `from` on,
   and answers every later one without error: the retry layer makes `k + 1`
   attempts, returns the successful answer, sleeps and logs `k` times and
   leaves its counter `k` lower. (With a counter of 5 and four failures:
   five exchanges, four sleeps.)
   */
  lemma RetryFailsThenSucceeds(env: Env, cell: nat, interval: int, inner: Client, req: Request, w: World, k: nat)
    requires Simple(inner) && Counter(w, cell) > k
    requires forall n: nat, q: Request :: env.transport(n, q).Failed() <==> n < w.calls + k
    ensures var r := Invoke(env, Wrapped(Retry(cell, interval), inner), req, w);
            var d := Delta(w, r.w);
            && r.Returned? && !r.out.Failed()
            && |Sends(d)| == k + 1
            && Sleeps(d) == k && RetryLogs(d) == k
            && Counter(r.w, cell) == Counter(w, cell) - k
  {
    RetryRun(env, cell, interval, inner, req, w);
    var r := Invoke(env, Wrapped(Retry(cell, interval), inner), req, w);
    var sends := Sends(Delta(w, r.w));
    var n := |sends|;
    assert sends[n - 1].out == env.transport(w.calls + n - 1, sends[n - 1].req);
    if n - 1 > k {
      // the exchange numbered `w.calls + k` succeeded, so it was the last
      EarlierFailed(env, inner, req, w.calls, w.draws, sends, k);
      assert false;
    }
  }

  /** An exchange before the last of a retry run is one the transport failed. */
  lemma EarlierFailed(env: Env, inner: Client, req: Request, calls: nat, draws: nat, s: seq<Event>, k: nat)
    requires Simple(inner) && SendsFrom(env, inner, req, calls, draws, s)
    requires k + 1 < |s| && AllFailed(s[..|s| - 1])
    ensures env.transport(calls + k, s[k].req).Failed()
  {
    assert s[..|s| - 1][k] == s[k];
  }

  /**
   A transport that always fails: the retry layer makes as many attempts as
   its counter holds, returns the error of the last one, and sleeps and logs
   after every failure, the last included; the counter ends at 0. (With a
   counter of 3: three exchanges and three sleeps.)
   */
  lemma RetryAlwaysFailing(env: Env, cell: nat, interval: int, inner: Client, req: Request, w: World)
    requires Simple(inner) && Counter(w, cell) > 0
    requires forall n: nat, q: Request :: env.transport(n, q).Failed()
    ensures var r := Invoke(env, Wrapped(Retry(cell, interval), inner), req, w);
            var d := Delta(w, r.w);
            && r.Returned? && r.out.Failed()
            && |Sends(d)| == Counter(w, cell)
            && r.out == Sends(d)[|Sends(d)| - 1].out
            && Sleeps(d) == Counter(w, cell) && RetryLogs(d) == Counter(w, cell)
            && Counter(r.w, cell) == 0
  {
    RetryRun(env, cell, interval, inner, req, w);
    var r := Invoke(env, Wrapped(Retry(cell, interval), inner), req, w);
    var sends := Sends(Delta(w, r.w));
    assert sends[|sends| - 1].out == env.transport(w.calls + |sends| - 1, sends[|sends| - 1].req);
  }

  /**
   The corrected layer against a transport that always fails: every attempt
   of the budget is made, the last error is returned, the layer sleeps after
   every failure and no counter changes.
   */
  lemma PerCallAlwaysFailing(env: Env, attempts: int, interval: int, inner: Client, req: Request, w: World)
    requires Simple(inner) && attempts > 0
    requires forall n: nat, q: Request :: env.transport(n, q).Failed()
    ensures var r := Invoke(env, Wrapped(RetryPerCall(attempts, interval), inner), req, w);
            var d := Delta(w, r.w);
            && r.Returned? && r.out.Failed()
            && |Sends(d)| == attempts && Sleeps(d) == attempts
            && r.out == Sends(d)[|Sends(d)| - 1].out
            && r.w.counters == w.counters
  {
    PerCallRun(env, attempts, interval, inner, req, w);
    var r := Invoke(env, Wrapped(RetryPerCall(attempts, interval), inner), req, w);
    var sends := Sends(Delta(w, r.w));
    assert sends[|sends| - 1].out == env.transport(w.calls + |sends| - 1, sends[|sends| - 1].req);
  }

  /**
   The shared counter, as written: once one call through a retry layer has
   used up the budget, every later call through the same layer, from any
   client that holds it and in any world the program may reach afterwards,
   makes no exchange at all and returns a nil response with a nil error,
   which its caller cannot tell from a success.
   */
  lemma SharedCounterStarves(env: Env, w0: World, attempts: int, interval: int, inner: Client, other: Client, req: Request, req2: Request)
    requires Simple(inner) && attempts > 0
    requires forall n: nat, q: Request :: env.transport(n, q).Failed()
    ensures var (d, w) := RetryDecorator(w0, attempts, interval);
            var r1 := Invoke(env, Wrapped(d, inner), req, w);
            var r2 := Invoke(env, Wrapped(d, other), req2, r1.w);
            && r1.Returned? && r1.out.Failed() && |Sends(Delta(w, r1.w))| == attempts
            && r2 == Returned(req2, NilOutcome, r1.w)
            && r2.out.res.None? && !r2.out.Failed()
            && (forall w2: World, c: Client, q: Request | Grows(r1.w, w2) ::
                  Invoke(env, Wrapped(d, c), q, w2) == Returned(q, NilOutcome, w2))
  {
    var (d, w) := RetryDecorator(w0, attempts, interval);
    RetryAlwaysFailing(env, d.cell, interval, inner, req, w);
    var r1 := Invoke(env, Wrapped(d, inner), req, w);
    RetryIdle(env, d.cell, interval, other, req2, r1.w);
    forall w2: World, c: Client, q: Request | Grows(r1.w, w2)
      ensures Invoke(env, Wrapped(d, c), q, w2) == Returned(q, NilOutcome, w2)
    {
      assert Counter(w2, d.cell) <= Counter(r1.w, d.cell);
      RetryIdle(env, d.cell, interval, c, q, w2);
    }
  }

  /**
   The decrement persists: a second call through the same retry layer, from
   any client holding it, starts from what the first call left. After a
   failed first call it makes no exchange and returns `(nil, nil)`; after a
   successful one that took `n1` attempts it has at most `start - (n1 - 1)`.
   */
  lemma BudgetCarriesOver(env: Env, cell: nat, interval: int, inner: Client, other: Client, req: Request, req2: Request, w: World)
    requires Simple(inner) && Simple(other) && Counter(w, cell) > 0
    ensures var r1 := Invoke(env, Wrapped(Retry(cell, interval), inner), req, w);
            var r2 := Invoke(env, Wrapped(Retry(cell, interval), other), req2, r1.w);
            var n1 := |Sends(Delta(w, r1.w))|;
            && r1.Returned? && r2.Returned?
            && (r1.out.Failed() ==> r2 == Returned(req2, NilOutcome, r1.w))
            && (!r1.out.Failed() ==> 1 <= |Sends(Delta(r1.w, r2.w))| <= Counter(w, cell) - (n1 - 1))
  {
    RetryRun(env, cell, interval, inner, req, w);
    var r1 := Invoke(env, Wrapped(Retry(cell, interval), inner), req, w);
    if r1.out.Failed() {
      RetryIdle(env, cell, interval, other, req2, r1.w);
    } else {
      RetryRun(env, cell, interval, other, req2, r1.w);
    }
  }

  /**
   The corrected layer: a second call through the same layer, after a first
   one that used up its budget, again gets the full budget.
   */
  lemma PerCallBudgetPerCall(env: Env, attempts: int, interval: int, inner: Client, other: Client, req: Request, req2: Request, w: World)
    requires Simple(inner) && Simple(other) && attempts > 0
    requires forall n: nat, q: Request :: env.transport(n, q).Failed()
    ensures var d := RetryPerCall(attempts, interval);
            var r1 := Invoke(env, Wrapped(d, inner), req, w);
            var r2 := Invoke(env, Wrapped(d, other), req2, r1.w);
            && r1.Returned? && r1.out.Failed() && |Sends(Delta(w, r1.w))| == attempts
            && r2.Returned? && r2.out.Failed() && |Sends(Delta(r1.w, r2.w))| == attempts
            && r2.w.counters == w.counters
  {
    PerCallAlwaysFailing(env, attempts, interval, inner, req, w);
    var r1 := Invoke(env, Wrapped(RetryPerCall(attempts, interval), inner), req, w);
    PerCallAlwaysFailing(env, attempts, interval, other, req2, r1.w);
  }

  /**
   A logging layer outside a retry layer logs the request once per call,
   before anything else happens, however many attempts the retry layer makes.
   */
  lemma LoggingOutsideRetry(env: Env, cell: nat, interval: int, inner: Client, req: Request, w: World)
    requires Simple(inner) && LoggingCount(inner) == 0 && Counter(w, cell) > 0
    ensures var r := Invoke(env, Wrapped(LoggingDecorator(), Wrapped(Retry(cell, interval), inner)), req, w);
            var d := Delta(w, r.w);
            && r.Returned? && |d| > 0 && d[0] == Logged(req) && Logs(d) == 1
  {
    var rc := Wrapped(Retry(cell, interval), inner);
    LoggingTransparent(env, rc, req, w);
    RetryRun(env, cell, interval, inner, req, w);
    var r0 := Invoke(env, rc, req, w);
    var r := Invoke(env, Wrapped(LoggingDecorator(), rc), req, w);
    assert Delta(w, r.w) == [Logged(req)] + Delta(w, r0.w);
    ViewsAppend([Logged(req)], Delta(w, r0.w));
    assert Logs([Logged(req)]) == 1;
  }

  /**
   A logging layer inside a retry layer logs once per attempt.
   */
  lemma LoggingInsideRetry(env: Env, cell: nat, interval: int, inner: Client, req: Request, w: World)
    requires Simple(inner) && LoggingCount(inner) == 0 && Counter(w, cell) > 0
    ensures var r := Invoke(env, Wrapped(Retry(cell, interval), Wrapped(LoggingDecorator(), inner)), req, w);
            var d := Delta(w, r.w);
            && r.Returned? && Logs(d) == |Sends(d)| >= 1
  {
    var c := Wrapped(LoggingDecorator(), inner);
    RetryRun(env, cell, interval, c, req, w);
    var r := Invoke(env, Wrapped(Retry(cell, interval), c), req, w);
    assert LoggingCount(c) == 1;
    assert AttemptCount(cell, w, r) && AccountSpec(cell, c, w, r);
  }

  /**
   Two header layers for the same key: the one listed first in `Decorate`
   sits innermost, so its value is the one the transport sees.
   */
  lemma FirstListedSetterWins(env: Env, key: GoString, v1: GoString, v2: GoString, req: Request, w: World)
    ensures var c := Decorate(Base, [SetHeaderDecorator(key, v1), SetHeaderDecorator(key, v2)]);
            var r := Invoke(env, c, req, w);
            var sends := Sends(Delta(w, r.w));
            && r.Returned? && |sends| == 1
            && key in sends[0].req.header && sends[0].req.header[key] == [v1]
  {
    var ds := [SetHeaderDecorator(key, v1), SetHeaderDecorator(key, v2)];
    var c1 := Wrapped(SetHeader(key, v1), Base);
    var c := Wrapped(SetHeader(key, v2), c1);
    assert ds[1..][1..] == [];
    assert Decorate(c1, ds[1..]) == Decorate(c, ds[1..][1..]) == c;
    assert Decorate(Base, ds) == c;
    OnePass(env, c, req, w);
    assert LastSet(c1, key) == Some(v1);
  }

  /** The retry settings of cmd/main.go. */
  const MainAttempts: int := 5
  /** `time.Second * 2`, a `time.Duration` in nanoseconds. */
  const MainInterval: int := 2_000_000_000

  /** The request a transport sees from the chain of cmd/main.go: a balanced target and the credentials. */
  ghost predicate MainRequest(q: Request, urls: seq<Url>, user: GoString, password: GoString)
  {
    && q.url in urls
    && AuthorizationKey in q.header
    && q.header[AuthorizationKey] == [BasicAuthHeader(user, password)]
  }

  /** The layers inside the retry layer of cmd/main.go, from the outside in. */
  function MainInner(urls: seq<Url>, user: GoString, password: GoString): Client
  {
    Wrapped(AuthorizationDecorator(user, password),
      Wrapped(LoadBalancerDecorator(Random, urls), Wrapped(LoggingDecorator(), Base)))
  }

  /** What `Deliver` promises about the target, for a request known only to have been delivered. */
  lemma DeliveredTarget(env: Env, c: Client, urls: seq<Url>, q: Request)
    requires Simple(c) && Delivered(env, c, q)
    requires InnermostBalancer(c) == Some(LoadBalancer(Random, urls))
    ensures q.url in urls
  {
    var q0: Request, d: nat :| Deliver(env, c, q0, d).0 == q;
  }

  /** What `Deliver` promises about a header, for a request known only to have been delivered. */
  lemma DeliveredHeader(env: Env, c: Client, key: GoString, value: GoString, q: Request)
    requires Simple(c) && Delivered(env, c, q)
    requires LastSet(c, key) == Some(value)
    ensures key in q.header && q.header[key] == [value]
  {
    var q0: Request, d: nat :| Deliver(env, c, q0, d).0 == q;
  }

  /** The balancer and the header value of the inner chain of cmd/main.go. */
  lemma MainLayers(urls: seq<Url>, key: GoString, value: GoString)
    ensures var c := Wrapped(SetHeader(key, value), Wrapped(LoadBalancer(Random, urls), Wrapped(Logging, Base)));
            && LastSet(c, key) == Some(value)
            && InnermostBalancer(c) == Some(LoadBalancer(Random, urls))
            && LoggingCount(c) == 1 && DrawCount(c) == 1
            && (|urls| > 0 ==> Simple(c))
  {
    var logged := Wrapped(Logging, Base);
    var balanced := Wrapped(LoadBalancer(Random, urls), logged);
    assert LastSet(logged, key).None? && InnermostBalancer(logged).None?;
    assert LoggingCount(logged) == 1 && DrawCount(logged) == 0;
    assert LastSet(balanced, key).None? && LoggingCount(balanced) == 1 && DrawCount(balanced) == 1;
  }

  /** Four decorators applied in turn: the last listed is outermost. */
  lemma DecorateFour(a: Decorator, b: Decorator, c: Decorator, d: Decorator)
    ensures Decorate(Base, [a, b, c, d]) == Wrapped(d, Wrapped(c, Wrapped(b, Wrapped(a, Base))))
  {
    assert [a, b, c, d] == [a, b, c] + [d];
    assert [a, b, c] == [a, b] + [c];
    assert [a, b] == [a] + [b];
    assert Decorate(Base, [a]) == Decorate(Wrapped(a, Base), []);
    DecorateSnoc(Base, [a], b);
    DecorateSnoc(Base, [a, b], c);
    DecorateSnoc(Base, [a, b, c], d);
  }

  /**
   The client of cmd/main.go, `Decorate(base, Logging, LoadBalancer(Random,
   urls), Authorization(user, password), Retry(5, 2s))` (there with the
   credentials "user" and "passwd"): one call makes one to five exchanges,
   each to one of `urls` with the `Authorization` header set to the
   credentials; the request logger is called and the strategy draws once per
   exchange, since both sit inside the retry layer.
   */
  lemma MainComposition(env: Env, urls: seq<Url>, user: GoString, password: GoString, w0: World, req: Request)
    requires |urls| > 0
    ensures var (d, w) := RetryDecorator(w0, MainAttempts, MainInterval);
            var c := Decorate(Base, [LoggingDecorator(), LoadBalancerDecorator(Random, urls),
                                     AuthorizationDecorator(user, password), d]);
            var r := Invoke(env, c, req, w);
            var sends := Sends(Delta(w, r.w));
            && r.Returned? && 1 <= |sends| <= MainAttempts
            && (forall i :: 0 <= i < |sends| ==> MainRequest(sends[i].req, urls, user, password))
            && Logs(Delta(w, r.w)) == |sends| && r.w.draws == w.draws + |sends|
  {
    var (d, w) := RetryDecorator(w0, MainAttempts, MainInterval);
    var inner := MainInner(urls, user, password);
    DecorateFour(LoggingDecorator(), LoadBalancerDecorator(Random, urls), AuthorizationDecorator(user, password), d);
    MainLayers(urls, AuthorizationKey, BasicAuthHeader(user, password));
    RetryRun(env, d.cell, MainInterval, inner, req, w);
    var r := Invoke(env, Wrapped(d, inner), req, w);
    var sends := Sends(Delta(w, r.w));
    forall i | 0 <= i < |sends|
      ensures MainRequest(sends[i].req, urls, user, password)
    {
      DeliversDelivered(env, inner, req, w.draws, |sends|, i);
      DeliveredTarget(env, inner, urls, sends[i].req);
      DeliveredHeader(env, inner, AuthorizationKey, BasicAuthHeader(user, password), sends[i].req);
    }
  }
}

=== FILE: single_pass.dfy ===
/**
 A chain without retry layers makes exactly one transport exchange per call.
 `Deliver` is the reference for that pass, computed without worlds or traces:
 the request that reaches the transport and the random draws consumed.
 */
module SinglePass {
  import opened Wrappers
  import opened Strings
  import opened Http
  import opened Hottp
  import opened Traces

  predicate RetryFree(c: Client)
  {
    match c
    case Base => true
    case Wrapped(d, inner) => !d.Retry? && !d.RetryPerCall? && RetryFree(inner)
  }

  /** No `RandomStrategy` balancer over an empty list, the one layer that panics. */
  predicate PanicFree(c: Client)
  {
    match c
    case Base => true
    case Wrapped(d, inner) => !(d.LoadBalancer? && d.strategy.Random? && |d.urls| == 0) && PanicFree(inner)
  }

  predicate Simple(c: Client)
  {
    RetryFree(c) && PanicFree(c)
  }

  function LoggingCount(c: Client): nat
  {
    match c
    case Base => 0
    case Wrapped(d, inner) => (if d.Logging? then 1 else 0) + LoggingCount(inner)
  }

  function DrawCount(c: Client): nat
  {
    match c
    case Base => 0
    case Wrapped(d, inner) => (if d.LoadBalancer? && d.strategy.Random? then 1 else 0) + DrawCount(inner)
  }

  /** The value of the innermost `SetHeader` layer for `key`: the last one applied to the request. */
  function LastSet(c: Client, key: GoString): Option<GoString>
  {
    match c
    case Base => None
    case Wrapped(d, inner) =>
      if LastSet(inner, key).Some? then LastSet(inner, key)
      else if d.SetHeader? && d.key == key then Some(d.value)
      else None
  }

  /** The innermost balancer layer: the one whose choice the transport sees. */
  function InnermostBalancer(c: Client): (r: Option<Decorator>)
    ensures r.Some? ==> r.value.LoadBalancer?
  {
    match c
    case Base => None
    case Wrapped(d, inner) =>
      if InnermostBalancer(inner).Some? then InnermostBalancer(inner)
      else if d.LoadBalancer? then Some(d)
      else None
  }

  /**
   The request the transport receives and the draws used when `req` passes
   once through `c`: method and body as given, each header as its innermost
   setter left it (or as given), the target chosen by the innermost balancer
   (or as given), one draw per random balancer.
   */
  function Deliver(env: Env, c: Client, req: Request, draws: nat): (r: (Request, nat))
    requires Simple(c)
    ensures r.0.verb == req.verb && r.0.body == req.body
    ensures r.1 == draws + DrawCount(c)
    ensures forall k :: LastSet(c, k).Some? ==> k in r.0.header && r.0.header[k] == [LastSet(c, k).value]
    ensures forall k :: LastSet(c, k).None? ==>
              (k in r.0.header <==> k in req.header) && (k in req.header ==> r.0.header[k] == req.header[k])
    ensures InnermostBalancer(c).None? ==> r.0.url == req.url
    ensures InnermostBalancer(c).Some? && InnermostBalancer(c).value.strategy.Random? ==>
              r.0.url in InnermostBalancer(c).value.urls
    ensures InnermostBalancer(c).Some? && InnermostBalancer(c).value.strategy.Custom? ==>
              r.0.url == InnermostBalancer(c).value.strategy.pick(InnermostBalancer(c).value.urls)
    decreases c
  {
    match c
    case Base => (req, draws)
    case Wrapped(d, inner) =>
      match d
      case Logging => Deliver(env, inner, req, draws)
      case SetHeader(key, value) => Deliver(env, inner, SetHeaderValue(req, key, value), draws)
      case LoadBalancer(s, urls) =>
        (match s
         case Random => Deliver(env, inner, req.(url := urls[env.draw(draws) % |urls|]), draws + 1)
         case Custom(pick) => Deliver(env, inner, req.(url := pick(urls)), draws))
      case _ => (req, draws)
  }

  /** The requests the transport can receive from one pass through `c`. */
  ghost predicate Delivered(env: Env, c: Client, q: Request)
    requires Simple(c)
  {
    exists q0: Request, d: nat :: Deliver(env, c, q0, d).0 == q
  }

  /**
   The requests `n` successive passes through `c` deliver when each pass
   starts from the request the previous one delivered, the first from `req`,
   with the draws numbered on from `draws`.
   */
  function Delivers(env: Env, c: Client, req: Request, draws: nat, n: nat): (r: seq<Request>)
    requires Simple(c)
    ensures |r| == n
    ensures n > 0 ==> r[0] == Deliver(env, c, req, draws).0
    decreases n
  {
    if n == 0 then []
    else
      var p := Deliver(env, c, req, draws);
      [p.0] + Delivers(env, c, p.0, p.1, n - 1)
  }

  /** Pass `i + 1` starts from what pass `i` delivered, its draws numbered `DrawCount(c)` later per pass. */
  lemma {:induction false} DeliversStep(env: Env, c: Client, req: Request, draws: nat, n: nat, i: nat)
    requires Simple(c) && i + 1 < n
    ensures var s := Delivers(env, c, req, draws, n);
            s[i + 1] == Deliver(env, c, s[i], draws + (i + 1) * DrawCount(c)).0
    decreases n
  {
    var p := Deliver(env, c, req, draws);
    var s, t := Delivers(env, c, req, draws, n), Delivers(env, c, p.0, p.1, n - 1);
    var k := DrawCount(c);
    DeliversTail(env, c, req, draws, n);
    if i == 0 {
      assert s[1] == t[0] == Deliver(env, c, s[0], p.1).0;
      assert p.1 == draws + (0 + 1) * k;
    } else {
      DeliversStep(env, c, p.0, p.1, n - 1, i - 1);
      DrawsShift(draws, k, i);
      assert s[i] == t[i - 1] && s[i + 1] == t[i];
    }
  }

  /** After the first pass, the passes continue from what it delivered. */
  lemma DeliversTail(env: Env, c: Client, req: Request, draws: nat, n: nat)
    requires Simple(c) && n > 0
    ensures var p := Deliver(env, c, req, draws);
            && p.1 == draws + DrawCount(c)
            && forall i :: 1 <= i < n ==> Delivers(env, c, req, draws, n)[i] == Delivers(env, c, p.0, p.1, n - 1)[i - 1]
  {
  }

  lemma DrawsShift(draws: nat, k: nat, i: nat)
    requires i >= 1
    ensures draws + k + ((i - 1) + 1) * k == draws + (i + 1) * k
  {
  }

  /** Every request in `Delivers` is one that a single pass delivers. */
  lemma {:induction false} DeliversDelivered(env: Env, c: Client, req: Request, draws: nat, n: nat, i: nat)
    requires Simple(c) && i < n
    ensures Delivered(env, c, Delivers(env, c, req, draws, n)[i])
    decreases n
  {
    var p := Deliver(env, c, req, draws);
    var s := Delivers(env, c, req, draws, n);
    assert s == [p.0] + Delivers(env, c, p.0, p.1, n - 1);
    if i == 0 {
      assert Deliver(env, c, req, draws).0 == s[0];
    } else {
      DeliversDelivered(env, c, p.0, p.1, n - 1, i - 1);
    }
  }

  /**
   What one call through a chain without retry layers does when it returns
   `(q, out)` in world `w'`: exactly one exchange, with the request `Deliver`
   computes; the transport's `(res, err)` comes back verbatim; one logger call
   per logging layer; no retry events; counters untouched.
   */
  ghost predicate PassResult(env: Env, c: Client, req: Request, w: World, q: Request, out: Outcome, w': World)
    requires Simple(c)
  {
    var p := Deliver(env, c, req, w.draws);
    && q == p.0
    && out == env.transport(w.calls, p.0)
    && w'.counters == w.counters
    && w'.calls == w.calls + 1
    && w'.draws == p.1
    && w.trace <= w'.trace
    && Sends(Delta(w, w')) == [Sent(w.calls, p.0, out)]
    && Logs(Delta(w, w')) == LoggingCount(c)
    && Sleeps(Delta(w, w')) == 0
    && RetryLogs(Delta(w, w')) == 0
  }

  /** A call through a chain without retry layers returns, as `PassResult` describes. */
  ghost predicate PassSpec(env: Env, c: Client, req: Request, w: World)
    requires Simple(c)
  {
    var r := Invoke(env, c, req, w);
    r.Returned? && PassResult(env, c, req, w, r.req, r.out, r.w)
  }

  lemma {:induction false} OnePass(env: Env, c: Client, req: Request, w: World)
    requires Simple(c)
    ensures PassSpec(env, c, req, w)
    decreases c
  {
    match c
    case Base =>
      BasePass(env, req, w);
    case Wrapped(d, inner) =>
      match d {
        case Logging =>
          OnePass(env, inner, req, w.(trace := w.trace + [Logged(req)]));
          LoggingPass(env, inner, req, w);
        case SetHeader(key, value) =>
          OnePass(env, inner, SetHeaderValue(req, key, value), w);
          SetHeaderPass(env, key, value, inner, req, w);
        case LoadBalancer(s, urls) =>
          match s {
            case Random =>
              OnePass(env, inner, req.(url := urls[env.draw(w.draws) % |urls|]), w.(draws := w.draws + 1));
              RandomPass(env, urls, inner, req, w);
            case Custom(pick) =>
              OnePass(env, inner, req.(url := pick(urls)), w);
              CustomPass(env, pick, urls, inner, req, w);
          }
      }
  }

  lemma BasePass(env: Env, req: Request, w: World)
    ensures PassSpec(env, Base, req, w)
  {
    var r := Invoke(env, Base, req, w);
    assert Delta(w, r.w) == [Sent(w.calls, req, r.out)];
  }

  lemma SetHeaderPass(env: Env, key: GoString, value: GoString, inner: Client, req: Request, w: World)
    requires Simple(inner)
    requires PassSpec(env, inner, SetHeaderValue(req, key, value), w)
    ensures PassSpec(env, Wrapped(SetHeader(key, value), inner), req, w)
  {
    assert Invoke(env, Wrapped(SetHeader(key, value), inner), req, w) == Invoke(env, inner, SetHeaderValue(req, key, value), w);
  }

  lemma CustomPass(env: Env, pick: seq<Url> -> Url, urls: seq<Url>, inner: Client, req: Request, w: World)
    requires Simple(inner)
    requires PassSpec(env, inner, req.(url := pick(urls)), w)
    ensures PassSpec(env, Wrapped(LoadBalancer(Custom(pick), urls), inner), req, w)
  {
    assert Invoke(env, Wrapped(LoadBalancer(Custom(pick), urls), inner), req, w) == Invoke(env, inner, req.(url := pick(urls)), w);
  }

  lemma LoggingPass(env: Env, inner: Client, req: Request, w: World)
    requires Simple(inner)
    requires PassSpec(env, inner, req, w.(trace := w.trace + [Logged(req)]))
    ensures PassSpec(env, Wrapped(Logging, inner), req, w)
  {
    var w1 := w.(trace := w.trace + [Logged(req)]);
    var r := Invoke(env, inner, req, w1);
    assert Invoke(env, Wrapped(Logging, inner), req, w) == r;
    assert Deliver(env, Wrapped(Logging, inner), req, w.draws) == Deliver(env, inner, req, w.draws);
    DeltaSplit(w, w, w1, r.w, [Logged(req)]);
    assert Delta(w, w) == [];
    ViewsAppend([Logged(req)], Delta(w1, r.w));
    LoggedEvents(req);
  }

  /** The event of one logger call: one log line, nothing else. */
  lemma LoggedEvents(req: Request)
    ensures Sends([Logged(req)]) == [] && Logs([Logged(req)]) == 1
    ensures Sleeps([Logged(req)]) == 0 && RetryLogs([Logged(req)]) == 0
  {
    assert [Logged(req)][1..] == [];
  }

  lemma RandomPass(env: Env, urls: seq<Url>, inner: Client, req: Request, w: World)
    requires Simple(inner) && |urls| > 0
    requires PassSpec(env, inner, req.(url := urls[env.draw(w.draws) % |urls|]), w.(draws := w.draws + 1))
    ensures PassSpec(env, Wrapped(LoadBalancer(Random, urls), inner), req, w)
  {
    var w1 := w.(draws := w.draws + 1);
    var r := Invoke(env, inner, req.(url := urls[env.draw(w.draws) % |urls|]), w1);
    assert Delta(w, r.w) == Delta(w1, r.w);
  }
}

=== FILE: strings.dfy ===
/**
 Go strings are immutable sequences of bytes; `[]byte(s)` copies those bytes
 unchanged. The model therefore represents every Go string as a sequence of
 bytes and writes string literals through `Ascii`.
 */
module Strings {

  type byte = b: int | 0 <= b < 256

  /** A Go `string` (or `[]byte`): a sequence of bytes, no encoding implied. */
  type GoString = seq<byte>

  /** The characters of a Go string literal, all of them in the ASCII range. */
  predicate IsAscii(s: string)
  {
    forall i :: 0 <= i < |s| ==> s[i] as int < 128
  }

  /** The bytes of an ASCII literal: one byte per character, with its code. */
  function Ascii(s: string): (r: GoString)
    requires IsAscii(s)
    ensures |r| == |s|
    ensures forall i :: 0 <= i < |s| ==> r[i] == s[i] as int
  {
    if |s| == 0 then [] else [s[0] as int] + Ascii(s[1..])
  }

  /** The bytes of two literals written one after the other. */
  lemma AsciiAppend(a: string, b: string)
    requires IsAscii(a) && IsAscii(b)
    ensures IsAscii(a + b) && Ascii(a + b) == Ascii(a) + Ascii(b)
  {
    assert forall i :: 0 <= i < |a + b| ==> (a + b)[i] == if i < |a| then a[i] else b[i - |a|];
  }

  /** The bytes of a literal are fixed by its character codes, one by one. */
  lemma AsciiBytes(s: string, b: seq<byte>)
    requires IsAscii(s) && |b| == |s| && forall i :: 0 <= i < |s| ==> b[i] == s[i] as int
    ensures Ascii(s) == b
  {
  }
}

=== FILE: traces.dfy ===
/** Views of an event trace: the exchanges in it and how many events of each kind it holds. */
module Traces {
  import opened Http
  import opened Hottp

  /** The transport exchanges of a trace, in order. */
  function Sends(t: seq<Event>): (r: seq<Event>)
    ensures |r| <= |t|
    ensures forall i :: 0 <= i < |r| ==> r[i].Sent?
  {
    if |t| == 0 then []
    else (if t[0].Sent? then [t[0]] else []) + Sends(t[1..])
  }

  /** How many times a request logger was called. */
  function Logs(t: seq<Event>): nat
  {
    if |t| == 0 then 0 else (if t[0].Logged? then 1 else 0) + Logs(t[1..])
  }

  /** How many times the retry layer slept. */
  function Sleeps(t: seq<Event>): nat
  {
    if |t| == 0 then 0 else (if t[0].Slept? then 1 else 0) + Sleeps(t[1..])
  }

  /** How many `retrying..` lines the retry layer logged. */
  function RetryLogs(t: seq<Event>): nat
  {
    if |t| == 0 then 0 else (if t[0].RetryLogged? then 1 else 0) + RetryLogs(t[1..])
  }

  /** Every view of a trace is the combination of the views of its two parts. */
  lemma {:induction false} ViewsAppend(a: seq<Event>, b: seq<Event>)
    ensures Sends(a + b) == Sends(a) + Sends(b)
    ensures Logs(a + b) == Logs(a) + Logs(b)
    ensures Sleeps(a + b) == Sleeps(a) + Sleeps(b)
    ensures RetryLogs(a + b) == RetryLogs(a) + RetryLogs(b)
    decreases |a|
  {
    if |a| == 0 {
      assert a + b == b;
    } else {
      assert (a + b)[1..] == a[1..] + b;
      ViewsAppend(a[1..], b);
    }
  }

  /**
   The trace without the request loggers' calls: the exchanges, retry log
   lines and sleeps, in the order they happened.
   */
  function Timeline(t: seq<Event>): (r: seq<Event>)
    ensures |r| == |t| - Logs(t)
    ensures forall i :: 0 <= i < |r| ==> !r[i].Logged?
  {
    if |t| == 0 then []
    else (if t[0].Logged? then [] else [t[0]]) + Timeline(t[1..])
  }

  /** The timeline of two traces in a row is the first's followed by the second's. */
  lemma {:induction false} TimelineAppend(a: seq<Event>, b: seq<Event>)
    ensures Timeline(a + b) == Timeline(a) + Timeline(b)
    decreases |a|
  {
    if |a| == 0 {
      assert a + b == b;
    } else {
      assert (a + b)[1..] == a[1..] + b;
      TimelineAppend(a[1..], b);
    }
  }

  /** Without retry log lines and sleeps, the timeline is just the exchanges. */
  lemma {:induction false} QuietTimeline(t: seq<Event>)
    requires Sleeps(t) == 0 && RetryLogs(t) == 0
    ensures Timeline(t) == Sends(t)
    decreases |t|
  {
    if |t| > 0 {
      QuietTimeline(t[1..]);
    }
  }

  /** The events `w'` holds beyond those of the earlier world `w`. */
  function Delta(w: World, w': World): seq<Event>
  {
    if |w.trace| <= |w'.trace| then w'.trace[|w.trace|..] else []
  }

  /** The events after `w` up to `w3`, when `w2` extends `w1` by `tail` on the way. */
  lemma DeltaSplit(w: World, w1: World, w2: World, w3: World, tail: seq<Event>)
    requires w.trace <= w1.trace && w2.trace == w1.trace + tail && w2.trace <= w3.trace
    ensures Delta(w, w3) == Delta(w, w1) + tail + Delta(w2, w3)
  {
    assert w3.trace == w.trace + Delta(w, w1) + tail + Delta(w2, w3);
  }

  /** The same split, behind any earlier trace `t`. */
  lemma DeltaShift(w: World, w1: World, w2: World, w3: World, tail: seq<Event>, t: seq<Event>)
    requires w.trace <= w1.trace && w2.trace == w1.trace + tail && w2.trace <= w3.trace
    ensures t + Delta(w, w1) + tail + Delta(w2, w3) == t + Delta(w, w3)
  {
    DeltaSplit(w, w1, w2, w3, tail);
  }
}

=== FILE: wrappers.dfy ===
/** The optional-value datatype used throughout the model for Go's nil pointers. */
module Wrappers {

  /** `None` stands for Go's `nil`; `Some(v)` for a non-nil pointer to `v`. */
  datatype Option<+T> = None | Some(value: T)
}
